=== FILE: README.md ===
# Frame upscaling of Deforum videos, modelled in Dafny

This project models the orchestration in `scripts/deforum_helpers/upscaling.py`. That file
drives the upscaling of a whole video, or of the frames of a finished generation batch.
The model covers five parts:

- **Working folder.** `process_upscale_vid_upload_logic` picks a working folder under
  `<cwd>/outputs/frame-upscaling`. It tries `<name>`, then `<name>_1`, `<name>_2`, and so on,
  until it finds a path that does not exist yet.
- **Extraction.** The job extracts the video's frames into `tmp_input_frames` in that folder.
- **Frame list.** `process_video_upscaling` copies the raw frames into a conversion folder
  and lists it. It drops the `_depth_` side products and sorts the remaining names by the
  integer before the first dot.
- **Upscaling.** Frame `i` of the sorted list is upscaled and saved as `<i, seven digits>.png`
  in the upscaled-frames folder.
- **Stitching.** `stitch_video` hands the upscaled frames to the encoder. It names the video
  from the job name, the resize settings and the upscalers. It then deletes the upscaled
  frames, moves them up beside the raw folder, or leaves them in place. The caller removes the
  conversion folder before stitching, and removes a video job's raw folder afterwards.

The modules follow that structure:

- `Decimal`: `str(int)`, `int(str)` and the `{:0>7d}` padding.
- `PathNames`: `posixpath.join`, `dirname`, `basename` and "lies inside".
- `Storage`: a file system of directories and files, with `makedirs`, `mkdir`, save, `listdir`,
  `rmtree` and `move`, as a class whose methods change it in place. `ConfinedTo` states that a
  step changed nothing outside some trees, apart from creating some named parent folders.
- `Allocation`: the working-folder loop.
- `FrameList`: the listing loop and the stable sort.
- `Naming`: the folder, frame and video names.
- `UpscaleLoop`: the write loop.
- `Stitching`: `stitch_video`.
- `Pipeline`: `process_video_upscaling` and `process_upscale_vid_upload_logic`.

Calls into code outside this file are parameters of the model:

- The upscaler (`process_frame` with PIL loading) is a function from settings and image to an
  optional image. None stands for an exception.
- The encoder (`ffmpeg_stitch_video`) is a function from its request to success or failure.
  Success writes the video file.
- The frames written by `vid2frames` and by `duplicate_pngs_from_folder` are given as maps
  from file name to image.
- The frame rate and the cleaned folder name are given as inputs.

In two places the code behaves in a way that is easy to misread:

- **Video location.** The video of a whole-video job goes in the frames folder's grandparent,
  which is the working folder. The video of a batch job goes in the frames folder's parent,
  which is the raw folder.
- **Second upscaler in the name.** A batch job's video name always carries
  `_then_<second upscaler>`. A whole-video job's name carries it only when the second
  upscaler's visibility is positive.

Three modelling assumptions are stated as preconditions:

- `Pipeline.RawLayout`: the raw folder is a named folder inside a parent folder.
- `Pipeline.PlainNames`: the job name, the scale text and the upscaler names contain no `/`.
- The cleaned folder name is one path component (`PathNames.IsName`).

## Model

| member | source | states |
|---|---|---|
| Allocation.AllocateOutputDir | scripts/deforum_helpers/upscaling.py:21-25 | The chosen folder does not exist, and every earlier candidate in the order `<name>`, `<name>_1`, `<name>_2`, ... does, so it is the first free one. The loop terminates on any finite set of existing paths. |
| Allocation.CandidateInjective | scripts/deforum_helpers/upscaling.py:21-24 | Different attempt numbers name different folders, which is why the loop makes progress. |
| Allocation.CandidateIsDirPath | scripts/deforum_helpers/upscaling.py:21-24 | Every candidate for a one-component name is a directory path directly inside `<cwd>/outputs/frame-upscaling`. |
| Decimal.Pad7Injective | scripts/deforum_helpers/upscaling.py:65 | Zero-padding to seven digits tells distinct frame numbers apart, including numbers with more than seven digits. |
| Decimal.ParseIntOfPad7 | scripts/deforum_helpers/upscaling.py:54 | `int` of a zero-padded frame number is that number. |
| Decimal.ParseIntSeparated | scripts/deforum_helpers/upscaling.py:54 | `int` reads `<digits>_<digits>` as the number of the two digit runs written together, as for a batch frame `<timestring>_<index>`. |
| Decimal.ParseIntExamples | scripts/deforum_helpers/upscaling.py:54 | `int` strips surrounding whitespace: `" 7\n"` reads as 7. |
| Decimal.ParseIntSigned | scripts/deforum_helpers/upscaling.py:54 | A sign may precede underscore-grouped digits: `"-1_0"` reads as -10. |
| Decimal.ParseIntRejects | scripts/deforum_helpers/upscaling.py:54 | A doubled, leading or trailing `_` makes `int` raise: `"1__0"`, `"_1"` and `"1_"` have no value. |
| FrameList.KeepColourFrames | scripts/deforum_helpers/upscaling.py:48-52 | The listing loop keeps, in listing order, exactly the names without `_depth_`. |
| FrameList.DropDepthFilesKeeps | scripts/deforum_helpers/upscaling.py:48-52 | A name survives the listing loop iff it was listed and has no `_depth_`, and then as often as it was listed. |
| FrameList.FindUnnumbered | scripts/deforum_helpers/upscaling.py:54 | Computing the sort keys fails iff some name has no integer before its first dot. It then reports the first such name in listing order, the one whose key raises. |
| FrameList.InsertStable | scripts/deforum_helpers/upscaling.py:54 | Inserting a name puts it first among the names with its key, and keeps the others with that key in order. |
| FrameList.SortByFacts | scripts/deforum_helpers/upscaling.py:54 | The stable sort orders by key, is a permutation, and keeps equal-key names in their original order. |
| FrameList.SeparatedFrameNumber | scripts/deforum_helpers/upscaling.py:54 | The sort key of `<digits>_<digits>.<ext>` is the number of the two digit runs written together. |
| FrameList.SortedByFrameNumber | scripts/deforum_helpers/upscaling.py:54 | Sorting numbered names orders them by ascending frame number, so `9.png` precedes `10.png`. |
| FrameList.ListFrames | scripts/deforum_helpers/upscaling.py:48-54 | The listing and sort fail iff a kept name has no integer prefix. Otherwise the result is a permutation of the kept names, ascending by frame number, with ties in listing order. |
| Naming.AudioMode | scripts/deforum_helpers/upscaling.py:99-101 | The soundtrack mode is `File` iff an audio path is given, and `None` iff none is. |
| Naming.FramePathsDistinct | scripts/deforum_helpers/upscaling.py:65 | Distinct loop positions give distinct frame files. |
| Naming.FramePathShape | scripts/deforum_helpers/upscaling.py:65 | Frame `i` is the file `<7-digit i>.png` directly inside the frames folder. Its name is 11 characters long below ten million, and its sort key is `i` again. |
| Naming.EncoderReadsWrittenFrames | scripts/deforum_helpers/upscaling.py:98 | Expanding the encoder's `%07d.png` pattern for `i` gives exactly the path where the loop saved frame `i` (line 65). |
| Naming.UpscaledFramesDirPlacement | scripts/deforum_helpers/upscaling.py:39-45 | The frames folder is `<raw>/upscaled_frames_<job name>`: a child of the raw folder, apart from the conversion folder. |
| Naming.VideoFileNameIsName | scripts/deforum_helpers/upscaling.py:92-96 | The video name is a single path component when the job name, scale and upscaler names contain no separator. |
| Naming.Mp4Placement | scripts/deforum_helpers/upscaling.py:89-96 | For frames in `<g>/<p>/<f>`, the video is `<g>/<name>` for a whole-video job and `<g>/<p>/<name>` for a batch job. `<name>` carries `_then_<second upscaler>` iff it is a batch job or the second visibility is positive. |
| Naming.ScaleNameExample | scripts/deforum_helpers/upscaling.py:92-96 | Scale 2.0 with ESRGAN and no second stage gives `clip_upscaled_by_2-0_with_ESRGAN.mp4`. |
| Naming.SizeNameExample | scripts/deforum_helpers/upscaling.py:92-96 | Resizing to 1920x1080 with ESRGAN gives `clip_upscaled_to_1920_1080_with_ESRGAN.mp4`. |
| Naming.ReplaceDots | scripts/deforum_helpers/upscaling.py:92 | Every `.` of the scale text becomes `-` and every other character stays. |
| UpscaleLoop.FramePathsCount | scripts/deforum_helpers/upscaling.py:61-66 | The first `n` frame paths are `n` distinct paths. |
| UpscaleLoop.FrameFilesKeys | scripts/deforum_helpers/upscaling.py:61-66 | The loop writes exactly the frame paths 0 to n-1, with no gap. |
| UpscaleLoop.FrameFilesHold | scripts/deforum_helpers/upscaling.py:61-66 | Written file `i` holds upscaled image `i`. |
| UpscaleLoop.ReadsAreNotWrites | scripts/deforum_helpers/upscaling.py:63-66 | No input in the conversion folder is an output frame, so the loop never overwrites what it reads. |
| UpscaleLoop.UpscaleFrames | scripts/deforum_helpers/upscaling.py:61-66 | Frame `i` is read from the conversion folder, upscaled and saved as frame `i`. The first frame that fails stops the loop with its index, and the frames before it stay written. No directory changes. |
| Stitching.StitchRequestReadsFrames | scripts/deforum_helpers/upscaling.py:98-105 | The encoder is asked for frames 0 to 1000000 of the frames folder, and its pattern names, for each `i`, the path where the write loop saved frame `i`. It takes its soundtrack from a file iff an audio path is given. |
| Stitching.CleanupDecisionTable | scripts/deforum_helpers/upscaling.py:110-114 | The delete guard and the move guard never both hold. Delete happens iff the encode succeeded and frames are not kept. Move happens iff it is a video job that keeps the frames or failed to encode. A failed batch job leaves the frames in place. |
| Stitching.StitchVideo | scripts/deforum_helpers/upscaling.py:88-116 | An encoder failure is caught and recorded. The video path is returned unless a cleanup step raises. The frames folder is deleted (raising iff it is missing), moved into the grandparent (raising iff the target is taken, lies inside it, or it is missing), or left alone, as the policy says. |
| Storage.FileSystem.MakeDirs | scripts/deforum_helpers/upscaling.py:28 | The folder and all its ancestors exist afterwards, and nothing else changes. |
| Storage.FileSystem.MakeDir | scripts/deforum_helpers/upscaling.py:58 | Exactly the one folder is added. |
| Storage.FileSystem.Save | scripts/deforum_helpers/upscaling.py:66 | Exactly the one file is written. |
| Storage.FileSystem.SaveAll | scripts/deforum_helpers/upscaling.py:30 | The given files are written over the old ones, and the directories stay. |
| Storage.FileSystem.ListDir | scripts/deforum_helpers/upscaling.py:49 | The listing has no repeats, and it holds exactly the single-component names directly inside the folder. |
| Storage.FileSystem.RemoveTree | scripts/deforum_helpers/upscaling.py:111 | `shutil.rmtree`, also at lines 68 and 75: removal succeeds iff the folder exists. It then removes everything at or below the folder and nothing else. On failure nothing changes. |
| Storage.FileSystem.Move | scripts/deforum_helpers/upscaling.py:114 | The tree goes into an existing target folder, or is renamed to the target. It fails, changing nothing, when the source is missing, the target is taken, or the target lies inside the source. |
| Storage.MoveCarriesFiles | scripts/deforum_helpers/upscaling.py:114 | Every file of the moved tree arrives, unchanged, at its rebased path. |
| Storage.MoveKeepsOthers | scripts/deforum_helpers/upscaling.py:114 | Files outside the moved tree and outside the target stay as they were. |
| Storage.MoveConfined | scripts/deforum_helpers/upscaling.py:114 | A move changes no folder and no file outside the source tree and the target tree. |
| Storage.PruneConfined | scripts/deforum_helpers/upscaling.py:111 | `shutil.rmtree`, also at lines 68 and 75, changes no folder and no file outside the removed tree. |
| Storage.MakeDirsConfined | scripts/deforum_helpers/upscaling.py:28 | `os.makedirs` changes nothing outside the new folder, apart from creating its parents. |
| Pipeline.FolderPlaces | scripts/deforum_helpers/upscaling.py:39-45 | The conversion folder and the frames folder are sibling children of the raw folder. Neither contains the raw folder or its parent. |
| Pipeline.VideoPlace | scripts/deforum_helpers/upscaling.py:89-96 | The video lies beside the raw folder for a video job and inside it for a batch job. It is never inside the conversion folder or the frames folder. |
| Pipeline.MovedFramesPlace | scripts/deforum_helpers/upscaling.py:113-114 | A video job's frames move to `<parent of raw>/upscaled_frames_<name>`. That is apart from the raw folder, so removing the raw folder at line 75 keeps them. |
| Pipeline.HoldsFramesMove | scripts/deforum_helpers/upscaling.py:114 | Moving the frames folder carries every numbered frame to the new folder. |
| Pipeline.DeletedAftermath | scripts/deforum_helpers/upscaling.py:110-111 | Deleting the frames folder leaves nothing in it or in the conversion folder, and keeps the raw folder and the video. |
| Pipeline.MoveVacatesSource | scripts/deforum_helpers/upscaling.py:114 | Moving a tree to a target apart from it leaves nothing at or below its old place: `shutil.move` moves rather than copies. |
| Pipeline.MovedAftermath | scripts/deforum_helpers/upscaling.py:113-114 | After the move, the frames sit beside the raw folder, and nothing is left in the old frames folder or the conversion folder. |
| Pipeline.ListAndSort | scripts/deforum_helpers/upscaling.py:48-54 | Listing the conversion folder and sorting fails iff a kept entry has no integer prefix. Otherwise each kept entry appears exactly once, ascending by frame number. |
| Pipeline.PrepareFrames | scripts/deforum_helpers/upscaling.py:45-58 | The converted frames are staged and sorted. The frames folder is created only if the sort succeeded and nothing exists at its path. |
| Pipeline.StitchInPlace | scripts/deforum_helpers/upscaling.py:72 | After `stitch_video`, the conversion folder is still empty and the raw folder still there. The encoder's failure is recorded, a successful encode leaves the video, and the frames are deleted, moved up beside and apart from the raw folder with nothing left in the old frames folder, or left in place, as the policy says. Nothing changes outside the video and, when it returned and did not leave them, the frames folder and the folder the frames moved to. |
| Pipeline.RawRemoved | scripts/deforum_helpers/upscaling.py:74-75 | Removing a video job's raw folder empties it, with the conversion folder and a deleted frames folder. It keeps frames that were moved up, and a video whose name differs from the raw folder's. |
| Pipeline.StitchAndTidy | scripts/deforum_helpers/upscaling.py:70-77 | Whatever the stitching does is caught. The raw folder is removed exactly for a video job whose stitching returned. The frames end up deleted, moved up or in place, as the policy says. A successful encode leaves the video in place. Nothing changes outside the trees the stitching touches and, for a video job, the raw folder. |
| Pipeline.FinishJob | scripts/deforum_helpers/upscaling.py:68-77 | The conversion folder is gone before stitching, and the end state is as `JobSettled` lays out. The encoder's failure is recorded. A successful encode leaves the video unless the video's name is the raw folder's own name. Nothing changes outside the conversion folder and the trees that stitching and the raw-folder removal touch. |
| Pipeline.StageAndUpscale | scripts/deforum_helpers/upscaling.py:45-66 | The sort raises with an unnumbered kept name. Otherwise the loop stops at the first frame that fails, with the frames before it written, or writes every kept name, in frame-number order, as the numbered frame at its position. Only the conversion folder, its parents and, once the sort succeeded, the frames folder change. |
| Pipeline.ProcessVideoUpscaling | scripts/deforum_helpers/upscaling.py:34-79 | If the sort or a frame raises, the raw and conversion folders stay, along with the frames upscaled so far. Otherwise frame `i` of the frame-number order is upscaled frame `i`, and the job settles as the cleanup policy says. The model reports the outcome `stitch_video` returned, which the source stores and never uses. A successful encode leaves the video unless the video's name is the raw folder's own name. Nothing changes outside the trees that the outcome names and the parents of the conversion folder. |
| Pipeline.UploadPlaces | scripts/deforum_helpers/upscaling.py:27-32 | For an uploaded video, the video is `<working folder>/<video name>`, which never clashes with `tmp_input_frames`. Frames that are moved up go to `<working folder>/upscaled_frames_<name>`. |
| Pipeline.UploadConfined | scripts/deforum_helpers/upscaling.py:16-32 | Creating the raw folder, extracting into it and running the job change nothing outside the working folder, apart from creating the working folder's parents. |
| Pipeline.ProcessUpscaleVidUpload | scripts/deforum_helpers/upscaling.py:16-32 | The job runs in the first free working folder, which the model reports together with the job's outcome; the source returns nothing. It uses the uploaded file as the soundtrack. When stitching returns, the raw frames are gone and a successful encode leaves the video there. Frames that are kept, or whose encode failed, end up in `upscaled_frames_<name>` in the working folder. A job that raises leaves the raw and conversion folders, and reports the unnumbered name or the failing frame with the frames before it written. Nothing outside the working folder changes, apart from creating its parents. |

## Left out

- GPU memory collection (`devices.torch_gc`), the progress bar and the console messages change no state that the model tracks.
- Probing the video (`get_quick_vid_info`), extracting frames (`vid2frames`), converting frames (`duplicate_pngs_from_folder`) and cleaning the folder name (`clean_folder_name`) are external code. Their results are inputs.
- The upscaler registry lookup in `process_frame`, PIL loading, `convert("RGB")` and the image pixels are foreign numerics. The upscaler is an opaque function that may fail.
- ffmpeg's internals are an external process. The encoder is an opaque call that writes the video or fails. A partial output file left by a failed encode is not modelled.
- Float formatting: the scale factor enters as its text (`str(upscaling_resize)`), and the second upscaler's visibility is compared as a real.
- `int()` is modelled with the ASCII whitespace it strips (tab to carriage return, and space), an optional sign and ASCII digits grouped by single `_` (PEP 515). Non-ASCII digits and non-ASCII whitespace are not modelled.
- Other processes can create folders between the existence test and `makedirs`. That concurrency is not modelled: uniqueness holds against one snapshot of the existing paths.
- The file system keeps folders and files in two separate collections, and nothing stops a path from being both a folder and a file. A real file system forbids that. This is why `Pipeline.StitchAndTidy` keeps the case of a video named like its raw folder apart.
- The file system does not require that a parent folder exists. Saving into a missing folder and `mkdir` with a missing parent do not fail in the model.
- Pipeline.ProcessVideoUpscaling: it requires that the raw folder is `<parent>/<name>` and that the job name, scale text and upscaler names contain no `/`. Other inputs are not covered.
- Pipeline.ProcessUpscaleVidUpload: it requires that the cleaned folder name is a single path component, as `clean_folder_name` is meant to ensure.
- Pipeline.StitchAndTidy: for a video job whose raw folder has the video's own name, it does not promise that the video file survives the removal of the raw folder.
- Pipeline.FinishJob: the same exception; a successful encode is promised to leave the video only when its name differs from the raw folder's.
- Pipeline.ProcessVideoUpscaling: the same exception as `Pipeline.FinishJob`. An uploaded video's job never meets it, because its raw folder is `tmp_input_frames`.
- Stitching.StitchRequestReadsFrames: when the frames folder already existed (line 57 then skips `mkdir`), numbered frames left there by an earlier run at positions from `n` on are also in the encoder's range. The model does not say what the encoder makes of them.

=== FILE: allocation.dfy ===
/**
  Choosing the working directory of a whole-video job
  (`process_upscale_vid_upload_logic`): `<cwd>/outputs/frame-upscaling/<name>`,
  or the first of `<name>_1`, `<name>_2`, ... that does not exist yet.
 */
module Allocation {
  import opened Decimal
  import opened PathNames

  /** `os.path.join(cwd, 'outputs', 'frame-upscaling')`. */
  function OutputRoot(cwd: string): string
  {
    Join(Join(cwd, "outputs"), "frame-upscaling")
  }

  /** The k-th directory name tried: the bare name first, then `<name>_<k>`. */
  function Candidate(cwd: string, name: string, k: nat): string
  {
    Join(OutputRoot(cwd), if k == 0 then name else name + "_" + NatToString(k))
  }

  /** `os.path.join` with a fixed first part tells second parts apart when both are relative or both absolute. */
  lemma JoinInjective(a: string, x: string, y: string)
    requires (x != [] && x[0] == '/') == (y != [] && y[0] == '/')
    requires Join(a, x) == Join(a, y)
    ensures x == y
  {
    if !(x != [] && x[0] == '/') {
      if a == [] || a[|a| - 1] == '/' {
        assert x == Join(a, x)[|a|..];
        assert y == Join(a, y)[|a|..];
      } else {
        assert x == Join(a, x)[|a| + 1..];
        assert y == Join(a, y)[|a| + 1..];
      }
    }
  }

  /** Different attempts name different directories. */
  lemma CandidateInjective(cwd: string, name: string, j: nat, k: nat)
    requires Candidate(cwd, name, j) == Candidate(cwd, name, k)
    ensures j == k
  {
    var root := OutputRoot(cwd);
    var x := if j == 0 then name else name + "_" + NatToString(j);
    var y := if k == 0 then name else name + "_" + NatToString(k);
    assert (x != [] && x[0] == '/') == (y != [] && y[0] == '/') by {
      if name != [] {
        assert x[0] == name[0] && y[0] == name[0];
      } else if j != 0 && k != 0 {
        assert x[0] == '_' && y[0] == '_';
      }
    }
    JoinInjective(root, x, y);
    if j != 0 && k != 0 {
      assert NatToString(j) == x[|name| + 1..] == y[|name| + 1..] == NatToString(k);
      NatToStringInjective(j, k);
    }
  }

  /**
    With a single-component name, every folder the allocation loop tries is a directory
    path directly inside the output root.
   */
  lemma CandidateIsDirPath(cwd: string, name: string, k: nat)
    requires IsName(name)
    ensures var c := Candidate(cwd, name, k);
            IsDirPath(c) && Dirname(c) == OutputRoot(cwd) && Under(c, OutputRoot(cwd)) && c != OutputRoot(cwd)
  {
    var root := OutputRoot(cwd);
    assert root[|root| - 1] == 'g';
    var x := if k == 0 then name else name + "_" + NatToString(k);
    assert IsName(x) by {
      if k != 0 {
        NoSlashInDigits(NatToString(k));
        assert x == name + "_" + NatToString(k);
      }
    }
    var c := Candidate(cwd, name, k);
    assert c == root + "/" + x;
    assert c[|c| - 1] == x[|x| - 1];
    assert c[..|root| + 1] == root + "/";
    SplitJoin(root, x);
  }

  lemma {:induction false} SubsetSize<T>(a: set<T>, b: set<T>)
    requires a <= b
    ensures |a| <= |b|
  {
    if a != {} {
      var x :| x in a;
      SubsetSize(a - {x}, b - {x});
    }
  }

  /**
    The allocation loop: keeps trying candidates while the current one is among the
    existing paths. The result does not exist, and every earlier candidate does, so it
    is the first free one. The loop ends because distinct attempts name distinct paths
    and only finitely many paths exist.
   */
  method AllocateOutputDir(cwd: string, name: string, existing: set<string>) returns (outdir: string)
    ensures outdir !in existing
    ensures exists k: nat :: outdir == Candidate(cwd, name, k) &&
                             forall j: nat :: j < k ==> Candidate(cwd, name, j) in existing
  {
    outdir := Join(OutputRoot(cwd), name);
    var i: nat := 1;
    ghost var tried: set<string> := {};
    while outdir in existing
      invariant i >= 1
      invariant outdir == Candidate(cwd, name, i - 1)
      invariant forall j: nat :: j < i - 1 ==> Candidate(cwd, name, j) in existing
      invariant tried <= existing && |tried| == i - 1
      invariant forall k: nat :: i - 1 <= k ==> Candidate(cwd, name, k) !in tried
      decreases |existing| - |tried|
    {
      forall k: nat | i <= k ensures Candidate(cwd, name, k) != outdir {
        if Candidate(cwd, name, k) == outdir {
          CandidateInjective(cwd, name, k, i - 1);
        }
      }
      tried := tried + {outdir};
      SubsetSize(tried, existing);
      outdir := Join(OutputRoot(cwd), name + "_" + NatToString(i));
      i := i + 1;
    }
  }
}

=== FILE: common.dfy ===
/** Failure-carrying wrappers shared by the model. */
module Common {

  datatype Option<+T> = None | Some(value: T)

  datatype Result<+T, +E> = Ok(value: T) | Err(error: E)
}

=== FILE: decimal.dfy ===
/**
  Decimal text of integers as Python produces and reads it: `str(n)`,
  the zero-padded `'{:0>7d}'.format(i)` used for upscaled frame names, and
  `int(s)` for the frame-number prefix of a file name.
 */
module Decimal {
  import opened Common

  predicate IsDigit(c: char) { '0' <= c <= '9' }

  predicate AllDigits(s: string) { forall i :: 0 <= i < |s| ==> IsDigit(s[i]) }

  /** Digits and the `_` separators PEP 515 allows between them. */
  predicate DigitText(s: string) { forall i :: 0 <= i < |s| ==> IsDigit(s[i]) || s[i] == '_' }

  /** Decimal digits contain no path separator. */
  lemma NoSlashInDigits(s: string)
    requires AllDigits(s)
    ensures '/' !in s
  {
    forall k | 0 <= k < |s| ensures s[k] != '/' {
      assert IsDigit(s[k]);
    }
  }

  function DigitValue(c: char): nat
    requires IsDigit(c)
  {
    c as int - '0' as int
  }

  function DigitChar(d: nat): (c: char)
    requires d < 10
    ensures IsDigit(c) && DigitValue(c) == d
  {
    ('0' as int + d) as char
  }

  function Pow10(k: nat): (p: nat)
    ensures p >= 1
  {
    if k == 0 then 1 else 10 * Pow10(k - 1)
  }

  /** `str(n)` for a non-negative int: digits, most significant first, no leading zero. */
  function NatToString(n: nat): (s: string)
    ensures |s| >= 1 && AllDigits(s)
    ensures (s[0] == '0') == (n == 0)
  {
    if n < 10 then [DigitChar(n)] else NatToString(n / 10) + [DigitChar(n % 10)]
  }

  /** `str(n)` for any int. */
  function IntToString(n: int): (s: string)
    ensures |s| >= 1
    ensures (s[0] == '-') == (n < 0)
  {
    if n < 0 then "-" + NatToString(-n) else NatToString(n)
  }

  /** The number a string of decimal digits denotes; `_` separators do not count. */
  function ValueOf(s: string): nat
    requires DigitText(s)
  {
    if s == [] then 0
    else if s[|s| - 1] == '_' then ValueOf(s[..|s| - 1])
    else ValueOf(s[..|s| - 1]) * 10 + DigitValue(s[|s| - 1])
  }

  /**
    The ASCII characters `int()` strips around the digits: tab to carriage return, and space.
    The separators 0x1C to 0x1F, which `str.strip()` would remove, are not among them.
   */
  predicate IsSpace(c: char) { '\t' <= c <= '\r' || c == ' ' }

  function TrimStart(s: string): (r: string)
    ensures r == [] || !IsSpace(r[0])
  {
    if s != [] && IsSpace(s[0]) then TrimStart(s[1..]) else s
  }

  function TrimEnd(s: string): (r: string)
    ensures r == [] || !IsSpace(r[|r| - 1])
  {
    if s != [] && IsSpace(s[|s| - 1]) then TrimEnd(s[..|s| - 1]) else s
  }

  /** `s.strip()` for ASCII whitespace. */
  function Trim(s: string): string
  {
    TrimEnd(TrimStart(s))
  }

  /** One or more digits, with single `_` separators between digits (PEP 515). */
  predicate Grouped(s: string)
    ensures Grouped(s) ==> s != [] && DigitText(s) && IsDigit(s[0]) && IsDigit(s[|s| - 1])
  {
    if s == [] then false
    else if |s| == 1 then IsDigit(s[0])
    else IsDigit(s[0]) && (Grouped(s[1..]) || (s[1] == '_' && Grouped(s[2..])))
  }

  /**
    `int(s)` in base 10: surrounding whitespace is stripped, then an optional sign and
    digits with single `_` separators between digits; anything else is a ValueError.
   */
  function ParseInt(s: string): Option<int>
  {
    var t := Trim(s);
    if t != [] && (t[0] == '-' || t[0] == '+') then
      if Grouped(t[1..]) then
        var v: int := ValueOf(t[1..]);
        Some(if t[0] == '-' then -v else v)
      else None
    else if Grouped(t) then Some(ValueOf(t))
    else None
  }

  /** `'{:0>7d}'.format(n)`: right-aligned, zero-filled to at least seven characters. */
  function Pad7(n: nat): string
  {
    var d := NatToString(n);
    if |d| < 7 then seq(7 - |d|, _ => '0') + d else d
  }

  lemma {:induction false} ValueOfNatToString(n: nat)
    ensures ValueOf(NatToString(n)) == n
  {
    if n >= 10 {
      var s := NatToString(n);
      assert s[..|s| - 1] == NatToString(n / 10);
      ValueOfNatToString(n / 10);
    }
  }

  /** `str` never gives two different naturals the same text. */
  lemma NatToStringInjective(a: nat, b: nat)
    requires NatToString(a) == NatToString(b)
    ensures a == b
  {
    ValueOfNatToString(a);
    ValueOfNatToString(b);
  }

  /** The decimal text of n has at most k digits exactly when n < 10^k. */
  lemma {:induction false} NatToStringLength(n: nat, k: nat)
    requires k >= 1
    ensures |NatToString(n)| <= k <==> n < Pow10(k)
  {
    if n >= 10 {
      if k == 1 {
        assert |NatToString(n / 10)| >= 1;
      } else {
        NatToStringLength(n / 10, k - 1);
      }
    } else if k > 1 {
      Pow10Grows(k);
    }
  }

  lemma {:induction false} Pow10Grows(k: nat)
    requires k >= 1
    ensures Pow10(k) >= 10
  {
    if k > 1 {
      Pow10Grows(k - 1);
    }
  }

  /** Leading zeros do not change the value of a digit string. */
  lemma {:induction false} ValueOfLeadingZeros(k: nat, s: string)
    requires AllDigits(s)
    ensures AllDigits(seq(k, _ => '0') + s)
    ensures ValueOf(seq(k, _ => '0') + s) == ValueOf(s)
  {
    var z: string := seq(k, _ => '0');
    var t := z + s;
    assert AllDigits(t) by {
      forall i | 0 <= i < |t| ensures IsDigit(t[i]) {
        if i < k { assert t[i] == z[i]; } else { assert t[i] == s[i - k]; }
      }
    }
    if s == [] {
      assert t == z;
      if k > 0 {
        assert t[..|t| - 1] == seq(k - 1, _ => '0');
        ValueOfLeadingZeros(k - 1, []);
        assert seq(k - 1, _ => '0') + [] == seq(k - 1, _ => '0');
      }
    } else {
      assert t[..|t| - 1] == z + s[..|s| - 1];
      ValueOfLeadingZeros(k, s[..|s| - 1]);
    }
  }

  /**
    The seven-digit frame number is all digits, exactly seven wide below ten million,
    and denotes the number it was made from.
   */
  lemma Pad7Value(n: nat)
    ensures AllDigits(Pad7(n))
    ensures ValueOf(Pad7(n)) == n
    ensures |Pad7(n)| == 7 <==> n < 10000000
    ensures |Pad7(n)| >= 7
  {
    var d := NatToString(n);
    ValueOfNatToString(n);
    NatToStringLength(n, 7);
    assert Pow10(7) == 10000000;
    if |d| < 7 {
      ValueOfLeadingZeros(7 - |d|, d);
    }
  }

  /** Distinct loop positions give distinct seven-digit names. */
  lemma Pad7Injective(a: nat, b: nat)
    requires Pad7(a) == Pad7(b)
    ensures a == b
  {
    Pad7Value(a);
    Pad7Value(b);
  }

  /** A non-empty digit string is a grouped digit text. */
  lemma {:induction false} AllDigitsGrouped(s: string)
    requires s != [] && AllDigits(s)
    ensures Grouped(s)
  {
    if |s| > 1 {
      AllDigitsGrouped(s[1..]);
    }
  }

  /** A string that starts and ends with a digit has nothing to strip. */
  lemma TrimDigits(s: string)
    requires s != [] && IsDigit(s[0]) && IsDigit(s[|s| - 1])
    ensures Trim(s) == s
  {
  }

  /** Reading back a seven-digit frame number with `int()` gives the number. */
  lemma ParseIntOfPad7(n: nat)
    ensures ParseInt(Pad7(n)) == Some(n)
  {
    var d := Pad7(n);
    Pad7Value(n);
    TrimDigits(d);
    AllDigitsGrouped(d);
  }

  /** Two digit runs joined by one `_` are grouped digit text. */
  lemma {:induction false} SeparatedGrouped(a: string, b: string)
    requires a != [] && b != [] && AllDigits(a) && AllDigits(b)
    ensures Grouped(a + "_" + b)
  {
    var s := a + "_" + b;
    if |a| == 1 {
      assert s[2..] == b;
      AllDigitsGrouped(b);
    } else {
      assert s[1..] == a[1..] + "_" + b;
      SeparatedGrouped(a[1..], b);
    }
  }

  /** A separator does not change the value. */
  lemma {:induction false} ValueOfSeparated(a: string, b: string)
    requires DigitText(a) && DigitText(b)
    ensures DigitText(a + "_" + b) && DigitText(a + b)
    ensures ValueOf(a + "_" + b) == ValueOf(a + b)
  {
    var s := a + "_" + b;
    if b == [] {
      assert s[..|s| - 1] == a;
      assert a + b == a;
    } else {
      var b' := b[..|b| - 1];
      assert s[..|s| - 1] == a + "_" + b';
      assert (a + b)[..|a + b| - 1] == a + b';
      ValueOfSeparated(a, b');
    }
  }

  /**
    `int()` reads `<digits>_<digits>` as the number of the digits run together, the shape
    of a frame named `<timestring>_<index>`.
   */
  lemma ParseIntSeparated(a: string, b: string)
    requires a != [] && b != [] && AllDigits(a) && AllDigits(b)
    ensures ParseInt(a + "_" + b) == Some(ValueOf(a + b))
  {
    var s := a + "_" + b;
    SeparatedGrouped(a, b);
    TrimDigits(s);
    ValueOfSeparated(a, b);
  }

  /** Whitespace around the digits is stripped. */
  lemma ParseIntExamples()
    ensures ParseInt(" 7\n") == Some(7)
  {
    assert Trim(" 7\n") == "7" by {
      assert TrimStart(" 7\n") == "7\n" by { assert " 7\n"[1..] == "7\n"; }
      assert TrimEnd("7\n") == "7" by { assert "7\n"[..1] == "7"; }
    }
    assert ValueOf("7") == 7 by { assert "7"[..0] == ""; }
  }

  /** A sign may precede digits grouped by single underscores. */
  lemma ParseIntSigned()
    ensures ParseInt("-1_0") == Some(-10)
  {
    assert "1" + "_" + "0" == "1_0" && "1" + "0" == "10";
    assert Grouped("1_0") by { SeparatedGrouped("1", "0"); }
    assert ValueOf("1_0") == 10 by {
      ValueOfSeparated("1", "0");
      assert ValueOf("10") == 10 by { assert "10"[..1] == "1"; assert "1"[..0] == ""; }
    }
    assert Trim("-1_0") == "-1_0";
    assert "-1_0"[1..] == "1_0";
  }

  /** A doubled, leading or trailing `_` is a ValueError, and so is a trailing file separator 0x1C. */
  lemma ParseIntRejects()
    ensures ParseInt("1__0") == None
    ensures ParseInt("_1") == None
    ensures ParseInt("1_") == None
    ensures ParseInt("7\U{1C}") == None
  {
    assert !Grouped("1__0") by {
      assert "1__0"[1..] == "__0" && "1__0"[2..] == "_0";
      assert "_0"[1..] == "0";
    }
    assert !Grouped("1_") by { assert "1_"[1..] == "_" && "1_"[2..] == ""; }
  }
}

=== FILE: frame_list.dfy ===
/**
  The frame list of `process_video_upscaling`: the names in the temporary
  conversion folder, without the `_depth_` side products, sorted by the
  integer before the first dot (numeric order, so `9.png` precedes `10.png`).
 */
module FrameList {
  import opened Common
  import opened Decimal

  /** `sub in s` for Python strings. */
  function Contains(s: string, sub: string): (r: bool)
    ensures r ==> |sub| <= |s|
    ensures sub <= s ==> r
  {
    if |s| < |sub| then false else sub <= s || Contains(s[1..], sub)
  }

  /** A depth-map side product that shares the folder with the colour frames. */
  predicate IsDepthFile(name: string) { Contains(name, "_depth_") }

  /** `s.split('.')[0]`: the longest prefix without a dot. */
  function BeforeFirstDot(s: string): (r: string)
    ensures r <= s && '.' !in r
    ensures |r| < |s| ==> s[|r|] == '.'
  {
    if s == [] || s[0] == '.' then [] else [s[0]] + BeforeFirstDot(s[1..])
  }

  /** The sort key `int(x.split('.')[0])`; None is the ValueError `int` raises. */
  function FrameNumber(name: string): Option<int>
  {
    ParseInt(BeforeFirstDot(name))
  }

  /** The prefix before a dot that does not occur earlier. */
  lemma {:induction false} BeforeDot(x: string, rest: string)
    requires '.' !in x
    ensures BeforeFirstDot(x + "." + rest) == x
  {
    if x != [] {
      assert (x + "." + rest)[1..] == x[1..] + "." + rest;
      BeforeDot(x[1..], rest);
    }
  }

  /**
    A frame named `<timestring>_<index>.<ext>` has a sort key: the two digit runs read
    together as one number, since `int()` accepts one `_` between digits.
   */
  lemma SeparatedFrameNumber(a: string, b: string, ext: string)
    requires a != [] && b != [] && AllDigits(a) && AllDigits(b)
    ensures FrameNumber(a + "_" + b + "." + ext) == Some(ValueOf(a + b))
  {
    var x := a + "_" + b;
    assert '.' !in x by {
      forall k | 0 <= k < |x| ensures x[k] != '.' {
        if k < |a| { assert x[k] == a[k]; } else if k > |a| { assert x[k] == b[k - |a| - 1]; }
      }
    }
    BeforeDot(x, ext);
    ParseIntSeparated(a, b);
  }

  /** The key as a number, for names whose key exists. */
  function Key(name: string): int
  {
    match FrameNumber(name)
    case Some(n) => n
    case None => 0
  }

  /** The names the listing loop keeps, in listing order. */
  function DropDepthFiles(s: seq<string>): seq<string>
  {
    if s == [] then []
    else DropDepthFiles(s[..|s| - 1]) + (if IsDepthFile(s[|s| - 1]) then [] else [s[|s| - 1]])
  }

  /** Exactly the names without `_depth_` survive the listing loop, each as often as listed. */
  lemma {:induction false} DropDepthFilesKeeps(s: seq<string>)
    ensures forall x :: multiset(DropDepthFiles(s))[x] == if IsDepthFile(x) then 0 else multiset(s)[x]
    ensures forall x :: x in DropDepthFiles(s) <==> x in s && !IsDepthFile(x)
  {
    if s != [] {
      var init := s[..|s| - 1];
      DropDepthFilesKeeps(init);
      assert s == init + [s[|s| - 1]];
    }
  }

  predicate SortedBy<T>(key: T -> int, s: seq<T>)
  {
    forall i, j :: 0 <= i < j < |s| ==> key(s[i]) <= key(s[j])
  }

  /** The elements of s whose key is k, in the order s has them. */
  function WithKey<T>(key: T -> int, s: seq<T>, k: int): seq<T>
  {
    if s == [] then []
    else (if key(s[0]) == k then [s[0]] else []) + WithKey(key, s[1..], k)
  }

  /** Puts x in front of the first element of the sorted s whose key is not smaller. */
  function Insert<T>(key: T -> int, x: T, s: seq<T>): seq<T>
  {
    if s == [] || key(x) <= key(s[0]) then [x] + s else [s[0]] + Insert(key, x, s[1..])
  }

  /** A stable sort by key: the effect of Python's `list.sort(key=...)`. */
  function SortBy<T>(key: T -> int, s: seq<T>): seq<T>
  {
    if s == [] then [] else Insert(key, s[0], SortBy(key, s[1..]))
  }

  lemma {:induction false} InsertBounded<T>(key: T -> int, x: T, s: seq<T>, b: int)
    requires key(x) >= b
    requires forall i :: 0 <= i < |s| ==> key(s[i]) >= b
    ensures forall i :: 0 <= i < |Insert(key, x, s)| ==> key(Insert(key, x, s)[i]) >= b
  {
    if !(s == [] || key(x) <= key(s[0])) {
      InsertBounded(key, x, s[1..], b);
    }
  }

  lemma {:induction false} InsertPermutes<T>(key: T -> int, x: T, s: seq<T>)
    ensures multiset(Insert(key, x, s)) == multiset{x} + multiset(s)
  {
    if !(s == [] || key(x) <= key(s[0])) {
      InsertPermutes(key, x, s[1..]);
      assert s == [s[0]] + s[1..];
    }
  }

  lemma {:induction false} InsertSorted<T>(key: T -> int, x: T, s: seq<T>)
    requires SortedBy(key, s)
    ensures SortedBy(key, Insert(key, x, s))
  {
    if !(s == [] || key(x) <= key(s[0])) {
      var t := s[1..];
      InsertSorted(key, x, t);
      InsertBounded(key, x, t, key(s[0]));
      var r := Insert(key, x, s);
      assert r == [s[0]] + Insert(key, x, t);
    }
  }

  lemma WithKeyCons<T>(key: T -> int, y: T, rest: seq<T>, k: int)
    ensures WithKey(key, [y] + rest, k) == (if key(y) == k then [y] else []) + WithKey(key, rest, k)
  {
    assert ([y] + rest)[1..] == rest;
  }

  /**
    Inserting x puts it after the elements with smaller keys only, so among the elements
    with x's key it comes first, and the others keep their order.
   */
  lemma {:induction false} InsertStable<T>(key: T -> int, x: T, s: seq<T>, k: int)
    ensures WithKey(key, Insert(key, x, s), k) == (if key(x) == k then [x] else []) + WithKey(key, s, k)
  {
    if s == [] || key(x) <= key(s[0]) {
      WithKeyCons(key, x, s, k);
    } else {
      var t := s[1..];
      InsertStable(key, x, t, k);
      WithKeyCons(key, s[0], Insert(key, x, t), k);
      WithKeyCons(key, s[0], t, k);
      assert s == [s[0]] + t;
      // key(x) > key(s[0]): at most one of them has key k
      if key(s[0]) == k {
        assert key(x) != k;
      } else {
        assert [] + WithKey(key, Insert(key, x, t), k) == WithKey(key, Insert(key, x, t), k);
      }
    }
  }

  /**
    The stable sort orders by key, is a permutation, and keeps elements with equal keys
    in their original relative order.
   */
  lemma {:induction false} SortByFacts<T>(key: T -> int, s: seq<T>)
    ensures SortedBy(key, SortBy(key, s))
    ensures multiset(SortBy(key, s)) == multiset(s)
    ensures forall k :: WithKey(key, SortBy(key, s), k) == WithKey(key, s, k)
  {
    if s != [] {
      SortByFacts(key, s[1..]);
      InsertSorted(key, s[0], SortBy(key, s[1..]));
      InsertPermutes(key, s[0], SortBy(key, s[1..]));
      forall k ensures WithKey(key, SortBy(key, s), k) == WithKey(key, s, k) {
        InsertStable(key, s[0], SortBy(key, s[1..]), k);
      }
      assert s == [s[0]] + s[1..];
    }
  }

  /** The listing loop of lines 48-52: keep, in listing order, every name without `_depth_`. */
  method KeepColourFrames(listing: seq<string>) returns (videogen: seq<string>)
    ensures videogen == DropDepthFiles(listing)
  {
    videogen := [];
    for i := 0 to |listing|
      invariant videogen == DropDepthFiles(listing[..i])
    {
      assert listing[..i + 1][..i] == listing[..i];
      if !IsDepthFile(listing[i]) {
        videogen := videogen + [listing[i]];
      }
    }
    assert listing[..|listing|] == listing;
  }

  /** Python computes every sort key before sorting; the first name without an integer prefix raises. */
  method FindUnnumbered(names: seq<string>) returns (bad: Option<string>)
    ensures bad.None? <==> forall x :: x in names ==> FrameNumber(x).Some?
    ensures bad.Some? ==> bad.value in names && FrameNumber(bad.value).None?
    ensures bad.Some? ==> exists k :: 0 <= k < |names| && names[k] == bad.value &&
                                      forall j :: 0 <= j < k ==> FrameNumber(names[j]).Some?
  {
    for i := 0 to |names|
      invariant forall j :: 0 <= j < i ==> FrameNumber(names[j]).Some?
    {
      if FrameNumber(names[i]).None? {
        return Some(names[i]);
      }
    }
    return None;
  }

  /** Sorting numbered names by Key sorts them by their frame numbers. */
  lemma SortedByFrameNumber(names: seq<string>)
    requires forall x :: x in names ==> FrameNumber(x).Some?
    ensures forall x :: x in SortBy(Key, names) ==> FrameNumber(x).Some?
    ensures forall i, j :: 0 <= i < j < |SortBy(Key, names)| ==>
              FrameNumber(SortBy(Key, names)[i]).value <= FrameNumber(SortBy(Key, names)[j]).value
  {
    var sorted := SortBy(Key, names);
    SortByFacts(Key, names);
    forall x | x in sorted ensures FrameNumber(x).Some? {
      assert x in multiset(sorted);
      assert x in multiset(names);
    }
  }

  /**
    The listing and sorting of lines 48-54: drop every `_depth_` name, then sort by the
    frame number. The sort fails with a kept name that has no integer prefix.
    On success the result is exactly the kept names, each once per listing entry, in
    ascending frame-number order, ties in listing order.
   */
  method ListFrames(listing: seq<string>) returns (r: Result<seq<string>, string>)
    ensures r.Err? <==> exists x :: x in listing && !IsDepthFile(x) && FrameNumber(x).None?
    ensures r.Err? ==> r.error in listing && !IsDepthFile(r.error) && FrameNumber(r.error).None?
    ensures r.Ok? ==> multiset(r.value) == multiset(DropDepthFiles(listing))
    ensures r.Ok? ==> forall x :: x in r.value ==> FrameNumber(x).Some?
    ensures r.Ok? ==> forall i, j :: 0 <= i < j < |r.value| ==>
                        FrameNumber(r.value[i]).value <= FrameNumber(r.value[j]).value
    ensures r.Ok? ==> forall k :: WithKey(Key, r.value, k) == WithKey(Key, DropDepthFiles(listing), k)
  {
    var videogen := KeepColourFrames(listing);
    DropDepthFilesKeeps(listing);
    var bad := FindUnnumbered(videogen);
    if bad.Some? {
      return Err(bad.value);
    }
    var sorted := SortBy(Key, videogen);
    SortByFacts(Key, videogen);
    SortedByFrameNumber(videogen);
    r := Ok(sorted);
  }
}

=== FILE: frames.dfy ===
/**
  The write loop of `process_video_upscaling`: frame i of the sorted list is
  read from the temporary conversion folder, upscaled, and saved as
  `<frames folder>/<i, seven digits>.png`.
 */
module UpscaleLoop {
  import opened Common
  import opened PathNames
  import opened Storage
  import opened Naming

  /** `process_frame` with the upscaler it looks up; None when it raises. */
  type Upscaler = (UpscaleSettings, Image) -> Option<Image>

  /**
    Loading a listed name with `Image.open` and upscaling it: None when the file is
    missing or not a picture, or when the upscaler raises.
   */
  function UpscaleOne(files: map<string, Content>, temp: string, name: string, st: UpscaleSettings, up: Upscaler): Option<Image>
  {
    var p := Join(temp, name);
    if p in files && files[p].Picture? then up(st, files[p].image) else None
  }

  predicate AllUpscale(files: map<string, Content>, temp: string, names: seq<string>, st: UpscaleSettings, up: Upscaler)
  {
    forall i :: 0 <= i < |names| ==> UpscaleOne(files, temp, names[i], st, up).Some?
  }

  /** The upscaled images of names, in order. */
  function UpscaledImages(files: map<string, Content>, temp: string, names: seq<string>, st: UpscaleSettings, up: Upscaler): (imgs: seq<Image>)
    requires AllUpscale(files, temp, names, st, up)
    ensures |imgs| == |names|
  {
    seq(|names|, i requires 0 <= i < |names| => UpscaleOne(files, temp, names[i], st, up).value)
  }

  /** The files the loop writes for the images, in writing order. */
  function FrameFiles(dir: string, imgs: seq<Image>): map<string, Content>
  {
    if imgs == [] then map[]
    else FrameFiles(dir, imgs[..|imgs| - 1])[FramePath(dir, |imgs| - 1) := Picture(imgs[|imgs| - 1])]
  }

  /** The paths of the first n upscaled frames. */
  function FramePaths(dir: string, n: nat): set<string>
  {
    set i: nat | i < n :: FramePath(dir, i)
  }

  /** Frame i of images sits at its numbered path in dir. */
  predicate HoldsFrames(files: map<string, Content>, dir: string, imgs: seq<Image>)
  {
    forall i :: 0 <= i < |imgs| ==> FramePath(dir, i) in files && files[FramePath(dir, i)] == Picture(imgs[i])
  }

  /** Output frames are pairwise distinct paths. */
  lemma FramePathFresh(dir: string, n: nat)
    ensures FramePath(dir, n) !in FramePaths(dir, n)
  {
    forall i: nat | i < n ensures FramePath(dir, i) != FramePath(dir, n) {
      if FramePath(dir, i) == FramePath(dir, n) {
        FramePathsDistinct(dir, i, n);
      }
    }
  }

  lemma FramePathsStep(dir: string, n: nat)
    ensures FramePaths(dir, n + 1) == FramePaths(dir, n) + {FramePath(dir, n)}
  {
  }

  /** The first n frame paths are n distinct paths. */
  lemma {:induction false} FramePathsCount(dir: string, n: nat)
    ensures |FramePaths(dir, n)| == n
  {
    if n > 0 {
      FramePathsCount(dir, n - 1);
      FramePathsStep(dir, n - 1);
      FramePathFresh(dir, n - 1);
    }
  }

  /** The loop writes its files at the densely numbered paths from 0, with no gap. */
  lemma {:induction false} FrameFilesKeys(dir: string, imgs: seq<Image>)
    ensures FrameFiles(dir, imgs).Keys == FramePaths(dir, |imgs|)
  {
    if imgs != [] {
      FrameFilesKeys(dir, imgs[..|imgs| - 1]);
      FramePathsStep(dir, |imgs| - 1);
    }
  }

  /** Every file the loop writes lies inside the frames folder. */
  lemma FrameFilesUnder(dir: string, imgs: seq<Image>)
    ensures forall p :: p in FrameFiles(dir, imgs) ==> Under(p, dir)
  {
    FrameFilesKeys(dir, imgs);
    forall i: nat | i < |imgs| ensures Under(FramePath(dir, i), dir) {
      assert FramePath(dir, i)[..|dir| + 1] == dir + "/";
    }
  }

  /** File i that the loop writes holds image i. */
  lemma {:induction false} FrameFilesHold(dir: string, imgs: seq<Image>)
    ensures HoldsFrames(FrameFiles(dir, imgs), dir, imgs)
  {
    if imgs != [] {
      var n := |imgs| - 1;
      var init := imgs[..n];
      var m := FrameFiles(dir, init);
      FrameFilesHold(dir, init);
      assert FrameFiles(dir, imgs) == m[FramePath(dir, n) := Picture(imgs[n])];
      forall i | 0 <= i < n
        ensures FramePath(dir, i) in FrameFiles(dir, imgs) && FrameFiles(dir, imgs)[FramePath(dir, i)] == Picture(imgs[i])
      {
        FramePathsDistinctNat(dir, i, n);
        assert init[i] == imgs[i];
      }
    }
  }

  lemma FramePathsDistinctNat(dir: string, i: nat, j: nat)
    requires i != j
    ensures FramePath(dir, i) != FramePath(dir, j)
  {
    if FramePath(dir, i) == FramePath(dir, j) {
      FramePathsDistinct(dir, i, j);
    }
  }

  /** Every upscaled frame lies inside its folder, and so outside any tree disjoint from it. */
  lemma FrameOutside(dir: string, other: string, i: nat)
    requires !Under(dir, other) && !Under(other, dir)
    ensures Under(FramePath(dir, i), dir)
    ensures !Under(FramePath(dir, i), other)
  {
    assert (dir + "/" + FrameFileName(i))[..|dir| + 1] == dir + "/";
    DisjointTrees(dir, other, FramePath(dir, i));
  }

  /** The loop never overwrites what it reads: a name in the conversion folder is not an output frame. */
  lemma ReadsAreNotWrites(temp: string, dir: string, name: string, n: nat)
    requires IsDirPath(temp) && IsName(name)
    requires !Under(dir, temp) && !Under(temp, dir)
    ensures Join(temp, name) !in FramePaths(dir, n)
  {
    var src := Join(temp, name);
    assert Under(src, temp) by {
      assert src == temp + "/" + name;
      assert src[..|temp| + 1] == temp + "/";
    }
    forall i: nat | i < n ensures FramePath(dir, i) != src {
      FrameOutside(dir, temp, i);
    }
  }

  lemma FrameFilesSnoc(dir: string, imgs: seq<Image>, img: Image)
    ensures FrameFiles(dir, imgs + [img]) == FrameFiles(dir, imgs)[FramePath(dir, |imgs|) := Picture(img)]
  {
    assert (imgs + [img])[..|imgs|] == imgs;
  }

  /** Reading a conversion-folder name sees the same file before and after the frames written so far. */
  lemma ReadThrough(files: map<string, Content>, temp: string, dir: string, name: string, imgs: seq<Image>, st: UpscaleSettings, up: Upscaler)
    requires IsDirPath(temp) && IsName(name)
    requires !Under(dir, temp) && !Under(temp, dir)
    ensures UpscaleOne(files + FrameFiles(dir, imgs), temp, name, st, up) == UpscaleOne(files, temp, name, st, up)
  {
    FrameFilesKeys(dir, imgs);
    ReadsAreNotWrites(temp, dir, name, |imgs|);
  }

  lemma UpscaledImagesSnoc(files: map<string, Content>, temp: string, names: seq<string>, i: nat, st: UpscaleSettings, up: Upscaler)
    requires i < |names|
    requires AllUpscale(files, temp, names[..i], st, up)
    requires UpscaleOne(files, temp, names[i], st, up).Some?
    ensures AllUpscale(files, temp, names[..i + 1], st, up)
    ensures UpscaledImages(files, temp, names[..i + 1], st, up) ==
            UpscaledImages(files, temp, names[..i], st, up) + [UpscaleOne(files, temp, names[i], st, up).value]
  {
    assert forall j :: 0 <= j < i ==> names[..i + 1][j] == names[..i][j];
  }

  /** Saving frame i after frames 0 to i-1 gives the files of frames 0 to i. */
  lemma WriteStep(files: map<string, Content>, temp: string, dir: string, names: seq<string>, i: nat, st: UpscaleSettings, up: Upscaler)
    requires i < |names|
    requires AllUpscale(files, temp, names[..i], st, up)
    requires UpscaleOne(files, temp, names[i], st, up).Some?
    ensures AllUpscale(files, temp, names[..i + 1], st, up)
    ensures (files + FrameFiles(dir, UpscaledImages(files, temp, names[..i], st, up)))
              [FramePath(dir, i) := Picture(UpscaleOne(files, temp, names[i], st, up).value)] ==
            files + FrameFiles(dir, UpscaledImages(files, temp, names[..i + 1], st, up))
  {
    UpscaledImagesSnoc(files, temp, names, i, st, up);
    FrameFilesSnoc(dir, UpscaledImages(files, temp, names[..i], st, up), UpscaleOne(files, temp, names[i], st, up).value);
  }

  /**
    Lines 61-66: frame i of names is read from the conversion folder, upscaled and saved
    as frame i of the frames folder; the first frame that cannot be read or upscaled
    stops the loop with its index, leaving the frames before it written. On success
    the folder has gained exactly one file per name, file i made from name i.
   */
  method UpscaleFrames(fs: FileSystem, temp: string, dir: string, names: seq<string>, st: UpscaleSettings, up: Upscaler)
    returns (failed: Option<nat>)
    requires IsDirPath(temp) && !Under(dir, temp) && !Under(temp, dir)
    requires forall i :: 0 <= i < |names| ==> IsName(names[i])
    modifies fs
    ensures fs.dirs == old(fs.dirs)
    ensures var n := if failed.Some? then failed.value else |names|;
            && n <= |names|
            && AllUpscale(old(fs.files), temp, names[..n], st, up)
            && fs.files == old(fs.files) + FrameFiles(dir, UpscaledImages(old(fs.files), temp, names[..n], st, up))
    ensures failed.Some? ==> failed.value < |names| && UpscaleOne(old(fs.files), temp, names[failed.value], st, up).None?
  {
    ghost var files0 := fs.files;
    var i := 0;
    while i < |names|
      invariant 0 <= i <= |names|
      invariant fs.dirs == old(fs.dirs)
      invariant AllUpscale(files0, temp, names[..i], st, up)
      invariant fs.files == files0 + FrameFiles(dir, UpscaledImages(files0, temp, names[..i], st, up))
    {
      ghost var done := UpscaledImages(files0, temp, names[..i], st, up);
      ReadThrough(files0, temp, dir, names[i], done, st, up);
      var image := UpscaleOne(fs.files, temp, names[i], st, up);
      if image.None? {
        return Some(i);
      }
      WriteStep(files0, temp, dir, names, i, st, up);
      fs.Save(FramePath(dir, i), Picture(image.value));
      i := i + 1;
    }
    assert names[..|names|] == names;
    return None;
  }
}

=== FILE: naming.dfy ===
/**
  The names the upscaling core gives to what it writes: the upscaled-frames
  folder, the temporary conversion folder, each upscaled frame, the encoder's
  input pattern and the output `.mp4`.
 */
module Naming {
  import opened Common
  import opened Decimal
  import opened PathNames
  import opened FrameList

  /** `str(x)` or `'{}'.format(x)` of a value that may be None: None prints as `None`. */
  function Show(o: Option<string>): string
  {
    match o
    case Some(s) => s
    case None => "None"
  }

  /** The job's name in every output name: the cleaned video name when there is one, else the batch id. */
  function JobId(origVidName: Option<string>, batchId: Option<string>): string
  {
    if origVidName.Some? then origVidName.value else Show(batchId)
  }

  /** `"{}_{}".format(os.path.join(raw, 'upscaled_frames'), name_or_batch_id)`. */
  function UpscaledFramesDir(raw: string, origVidName: Option<string>, batchId: Option<string>): string
  {
    Join(raw, "upscaled_frames") + "_" + JobId(origVidName, batchId)
  }

  /** `os.path.join(raw, "tmp_upscale_folder")`. */
  function TempConvertDir(raw: string): string
  {
    Join(raw, "tmp_upscale_folder")
  }

  /** The file name of upscaled frame i: `'{:0>7d}.png'.format(i)`. */
  function FrameFileName(i: nat): string
  {
    Pad7(i) + ".png"
  }

  /** `'{}/{:0>7d}.png'.format(dir, i)`. */
  function FramePath(dir: string, i: nat): string
  {
    dir + "/" + FrameFileName(i)
  }

  /** The encoder's input: `os.path.join(frames_dir, "%07d.png")`. */
  function EncoderPattern(framesDir: string): string
  {
    Join(framesDir, "%07d.png")
  }

  /**
    The file the encoder reads as frame i of a pattern ending in `%07d.png`: C's `%07d`
    writes a non-negative number zero-filled to seven digits.
   */
  function ExpandFramePattern(pattern: string, i: nat): string
  {
    if |pattern| >= 8 && pattern[|pattern| - 8..] == "%07d.png"
    then pattern[..|pattern| - 8] + Pad7(i) + ".png"
    else pattern
  }

  /** The encoder's `add_soundtrack` argument. */
  function AudioMode(audioPath: Option<string>): (mode: string)
    ensures mode == "File" <==> audioPath.Some?
    ensures mode == "None" <==> audioPath.None?
  {
    if audioPath.Some? then "File" else "None"
  }

  /** The resize and upscaler settings the UI passes through every stage. */
  datatype UpscaleSettings = UpscaleSettings(
    resizeMode: int,     // 0: multiply by a scale factor; otherwise: resize to width x height
    scaleText: string,   // str(upscaling_resize)
    width: int,
    height: int,
    crop: bool,
    upscaler1: string,
    upscaler2: string,
    visibility2: real)   // blend weight of the second upscaler; 0 switches it off

  /** `str.replace('.', '-')`. */
  function ReplaceDots(s: string): (r: string)
    ensures |r| == |s|
    ensures forall i :: 0 <= i < |s| ==> r[i] == if s[i] == '.' then '-' else s[i]
  {
    if s == [] then [] else [if s[0] == '.' then '-' else s[0]] + ReplaceDots(s[1..])
  }

  /** `by_<scale with '-' for '.'>` in scale mode, `to_<w>_<h>` otherwise. */
  function ResizeTag(st: UpscaleSettings): string
  {
    if st.resizeMode == 0 then "by_" + ReplaceDots(st.scaleText)
    else "to_" + IntToString(st.width) + "_" + IntToString(st.height)
  }

  /** The `.mp4` file name, with or without the `_then_<second upscaler>` part. */
  function VideoFileName(id: string, st: UpscaleSettings, second: bool): string
  {
    id + "_upscaled_" + ResizeTag(st) + "_with_" + st.upscaler1 +
    (if second then "_then_" + st.upscaler2 else "") + ".mp4"
  }

  /**
    `mp4_path` of `stitch_video`, as lines 89-96 build it: beside the raw folder (the
    frames folder's grandparent) for a video job, with the second upscaler named only
    when its visibility is positive; inside the raw folder (the frames folder's parent)
    for a batch job, with the second upscaler always named.
   */
  function Mp4Path(framesDir: string, batchId: Option<string>, origVidName: Option<string>, st: UpscaleSettings): string
  {
    var parent := Dirname(framesDir);
    var grandparent := Dirname(parent);
    var stem :=
      if origVidName.Some? then
        Join(grandparent, origVidName.value + "_upscaled_" + ResizeTag(st)) + "_with_" + st.upscaler1 +
        (if st.visibility2 > 0.0 then "_then_" + st.upscaler2 else "")
      else
        Join(parent, Show(batchId) + "_upscaled_" + ResizeTag(st)) + "_with_" + st.upscaler1 + "_then_" + st.upscaler2;
    stem + ".mp4"
  }

  /** Upscaled frame i is named by i alone: distinct positions give distinct files. */
  lemma FramePathsDistinct(dir: string, i: nat, j: nat)
    requires FramePath(dir, i) == FramePath(dir, j)
    ensures i == j
  {
    var a := FramePath(dir, i);
    var b := FramePath(dir, j);
    Pad7Value(i);
    Pad7Value(j);
    assert FrameFileName(i) == a[|dir| + 1..] == b[|dir| + 1..] == FrameFileName(j);
    assert Pad7(i) == FrameFileName(i)[..|FrameFileName(i)| - 4];
    assert Pad7(j) == FrameFileName(j)[..|FrameFileName(j)| - 4];
    Pad7Injective(i, j);
  }

  /**
    Frame i is the file `FrameFileName(i)` directly inside the frames folder; below ten
    million frames its name is eleven characters, and its frame number, read back as
    the listing sort reads it, is i.
   */
  lemma FramePathShape(dir: string, i: nat)
    requires IsDirPath(dir)
    ensures IsName(FrameFileName(i))
    ensures FramePath(dir, i) == Join(dir, FrameFileName(i))
    ensures Dirname(FramePath(dir, i)) == dir && Basename(FramePath(dir, i)) == FrameFileName(i)
    ensures i < 10000000 ==> |FrameFileName(i)| == 11
    ensures FrameNumber(FrameFileName(i)) == Some(i)
  {
    var n := FrameFileName(i);
    Pad7Value(i);
    NoSlashInDigits(Pad7(i));
    assert '/' !in n by {
      assert n == Pad7(i) + ".png";
    }
    assert n[0] != '/' by { assert n[0] == Pad7(i)[0]; }
    SplitJoin(dir, n);
    NoDotInDigits(Pad7(i));
    BeforeFirstDotStops(Pad7(i), ".png");
    ParseIntOfPad7(i);
  }

  /** The key prefix of `d + rest` is d when d has no dot and rest starts with one. */
  lemma {:induction false} BeforeFirstDotStops(d: string, rest: string)
    requires '.' !in d && rest != [] && rest[0] == '.'
    ensures BeforeFirstDot(d + rest) == d
  {
    if d != [] {
      assert (d + rest)[1..] == d[1..] + rest;
      BeforeFirstDotStops(d[1..], rest);
    }
  }

  lemma NoDotInDigits(s: string)
    requires AllDigits(s)
    ensures '.' !in s
  {
    forall k | 0 <= k < |s| ensures s[k] != '.' {
      assert IsDigit(s[k]);
    }
  }

  /** The encoder's pattern expands, for every i, to the file the write loop gave frame i. */
  lemma EncoderReadsWrittenFrames(dir: string, i: nat)
    requires IsDirPath(dir)
    ensures ExpandFramePattern(EncoderPattern(dir), i) == FramePath(dir, i)
  {
    var p := EncoderPattern(dir);
    assert p == dir + "/" + "%07d.png";
    assert p[|p| - 8..] == "%07d.png";
    assert p[..|p| - 8] == dir + "/";
  }

  /**
    The upscaled-frames folder is `upscaled_frames_<job>` directly inside the raw folder,
    beside the temporary conversion folder and sharing no path with it.
   */
  lemma UpscaledFramesDirPlacement(raw: string, origVidName: Option<string>, batchId: Option<string>)
    requires IsDirPath(raw) && '/' !in JobId(origVidName, batchId)
    ensures UpscaledFramesDir(raw, origVidName, batchId) == Join(raw, "upscaled_frames_" + JobId(origVidName, batchId))
    ensures Dirname(UpscaledFramesDir(raw, origVidName, batchId)) == raw
    ensures Basename(UpscaledFramesDir(raw, origVidName, batchId)) == "upscaled_frames_" + JobId(origVidName, batchId)
    ensures !Under(UpscaledFramesDir(raw, origVidName, batchId), TempConvertDir(raw))
    ensures !Under(TempConvertDir(raw), UpscaledFramesDir(raw, origVidName, batchId))
    ensures IsName("upscaled_frames_" + JobId(origVidName, batchId))
  {
    var id := JobId(origVidName, batchId);
    var n := "upscaled_frames_" + id;
    assert '/' !in n by {
      assert forall k :: 0 <= k < |n| ==> n[k] == if k < 16 then "upscaled_frames_"[k] else id[k - 16];
    }
    assert UpscaledFramesDir(raw, origVidName, batchId) == raw + "/" + n;
    SplitJoin(raw, n);
    assert n[0] != "tmp_upscale_folder"[0];
    SiblingsDisjoint(raw, n, "tmp_upscale_folder");
  }

  predicate NoSlash(s: string) { '/' !in s }

  lemma NoSlashConcat(a: string, b: string)
    requires NoSlash(a) && NoSlash(b)
    ensures NoSlash(a + b)
  {
    forall k | 0 <= k < |a + b| ensures (a + b)[k] != '/' {
      if k < |a| { assert (a + b)[k] == a[k]; } else { assert (a + b)[k] == b[k - |a|]; }
    }
  }

  lemma IntToStringNoSlash(n: int)
    ensures NoSlash(IntToString(n))
  {
    NoSlashInDigits(NatToString(if n < 0 then -n else n));
    if n < 0 {
      NoSlashConcat("-", NatToString(-n));
    }
  }

  lemma VideoFileNameIsName(id: string, st: UpscaleSettings, second: bool)
    requires NoSlash(id) && NoSlash(st.scaleText) && NoSlash(st.upscaler1) && NoSlash(st.upscaler2)
    ensures IsName(VideoFileName(id, st, second))
  {
    var tag := ResizeTag(st);
    assert NoSlash(tag) by {
      if st.resizeMode == 0 {
        var r := ReplaceDots(st.scaleText);
        assert NoSlash(r) by {
          forall k | 0 <= k < |r| ensures r[k] != '/' {
            assert st.scaleText[k] != '/';
          }
        }
        NoSlashConcat("by_", r);
      } else {
        IntToStringNoSlash(st.width);
        IntToStringNoSlash(st.height);
        NoSlashConcat("to_", IntToString(st.width));
        NoSlashConcat("to_" + IntToString(st.width), "_");
        NoSlashConcat("to_" + IntToString(st.width) + "_", IntToString(st.height));
      }
    }
    NoSlashConcat(id, "_upscaled_");
    NoSlashConcat(id + "_upscaled_", tag);
    NoSlashConcat(id + "_upscaled_" + tag, "_with_");
    NoSlashConcat(id + "_upscaled_" + tag + "_with_", st.upscaler1);
    var head := id + "_upscaled_" + tag + "_with_" + st.upscaler1;
    var tail := if second then "_then_" + st.upscaler2 else "";
    if second {
      NoSlashConcat("_then_", st.upscaler2);
    }
    NoSlashConcat(head, tail);
    NoSlashConcat(head + tail, ".mp4");
    assert VideoFileName(id, st, second) == head + tail + ".mp4";
  }

  /** With its folders named, `mp4_path` is the video file name joined to the folder chosen for the job. */
  lemma Mp4PathUnfold(framesDir: string, batchId: Option<string>, origVidName: Option<string>, st: UpscaleSettings)
    requires var folder := if origVidName.Some? then Dirname(Dirname(framesDir)) else Dirname(framesDir);
             IsDirPath(folder)
    requires NoSlash(JobId(origVidName, batchId))
    ensures Mp4Path(framesDir, batchId, origVidName, st) ==
            (if origVidName.Some? then Dirname(Dirname(framesDir)) else Dirname(framesDir)) + "/" +
            VideoFileName(JobId(origVidName, batchId), st, origVidName.None? || st.visibility2 > 0.0)
  {
    var folder := if origVidName.Some? then Dirname(Dirname(framesDir)) else Dirname(framesDir);
    var id := JobId(origVidName, batchId);
    var second := origVidName.None? || st.visibility2 > 0.0;
    var stem := Join(folder, id + "_upscaled_" + ResizeTag(st)) + "_with_" + st.upscaler1;
    if origVidName.None? {
      ConcatAssoc(stem, "_then_", st.upscaler2);
    }
    JoinedVideoName(folder, id, st, second);
  }

  /** Joining the front of the video name to a folder and appending the rest is joining the whole name. */
  lemma JoinedVideoName(folder: string, id: string, st: UpscaleSettings, second: bool)
    requires IsDirPath(folder) && NoSlash(id)
    ensures Join(folder, id + "_upscaled_" + ResizeTag(st)) + "_with_" + st.upscaler1 +
            (if second then "_then_" + st.upscaler2 else "") + ".mp4" ==
            folder + "/" + VideoFileName(id, st, second)
  {
    var head := id + "_upscaled_" + ResizeTag(st);
    var w := "_with_";
    var u := st.upscaler1;
    var t := if second then "_then_" + st.upscaler2 else "";
    var m := ".mp4";
    var tail := w + u + t + m;
    var joined := Join(folder, head);
    assert joined == folder + "/" + head by {
      assert head[0] != '/' by {
        if id != [] { assert head[0] == id[0]; } else { assert head[0] == '_'; }
      }
    }
    ConcatAssoc(joined, w, u);
    ConcatAssoc(joined, w + u, t);
    ConcatAssoc(joined, w + u + t, m);
    assert joined + w + u + t + m == joined + tail;
    ConcatAssoc(folder + "/", head, tail);
    ConcatAssoc(head, w, u);
    ConcatAssoc(head, w + u, t);
    ConcatAssoc(head, w + u + t, m);
    assert VideoFileName(id, st, second) == head + tail;
  }

  lemma ConcatAssoc(a: string, b: string, c: string)
    ensures (a + b) + c == a + (b + c)
  {
  }

  /**
    Where `stitch_video` puts the video and what it calls it. For frames in
    `<g>/<p>/<f>`: a video job writes `<g>/<name>` and names the second upscaler only
    when its visibility is positive; a batch job writes `<g>/<p>/<name>` and always
    names it.
   */
  lemma Mp4Placement(g: string, p: string, f: string, batchId: Option<string>, origVidName: Option<string>, st: UpscaleSettings)
    requires IsDirPath(g) && IsName(p) && IsName(f)
    requires NoSlash(JobId(origVidName, batchId))
    requires NoSlash(st.scaleText) && NoSlash(st.upscaler1) && NoSlash(st.upscaler2)
    ensures var name := VideoFileName(JobId(origVidName, batchId), st, origVidName.None? || st.visibility2 > 0.0);
            && IsName(name)
            && Mp4Path(Join(Join(g, p), f), batchId, origVidName, st) ==
               Join(if origVidName.Some? then g else Join(g, p), name)
  {
    var second := origVidName.None? || st.visibility2 > 0.0;
    var id := JobId(origVidName, batchId);
    var name := VideoFileName(id, st, second);
    VideoFileNameIsName(id, st, second);
    var parent := Join(g, p);
    assert IsDirPath(parent) by { assert parent == g + "/" + p; }
    SplitJoin(g, p);
    SplitJoin(parent, f);
    var framesDir := Join(parent, f);
    assert Dirname(framesDir) == parent && Dirname(parent) == g;
    Mp4PathUnfold(framesDir, batchId, origVidName, st);
    var folder := if origVidName.Some? then g else parent;
    assert Join(folder, name) == folder + "/" + name;
  }

  /** The scale text `2.0` appears in a video name as `2-0`. */
  lemma DotExample()
    ensures ReplaceDots("2.0") == "2-0"
  {
    var r := ReplaceDots("2.0");
    assert "2.0"[0] == '2' && "2.0"[1] == '.' && "2.0"[2] == '0';
    assert |r| == 3 && r[0] == '2' && r[1] == '-' && r[2] == '0';
  }

  lemma ScaleNameExample()
    ensures VideoFileName("clip", UpscaleSettings(0, "2.0", 0, 0, false, "ESRGAN", "", 0.0), false)
            == "clip_upscaled_by_2-0_with_ESRGAN.mp4"
  {
    DotExample();
    var st := UpscaleSettings(0, "2.0", 0, 0, false, "ESRGAN", "", 0.0);
    assert ResizeTag(st) == "by_" + "2-0" == "by_2-0";
    assert "clip" + "_upscaled_" == "clip_upscaled_";
    assert "clip_upscaled_" + "by_2-0" == "clip_upscaled_by_2-0";
    assert "clip_upscaled_by_2-0" + "_with_" == "clip_upscaled_by_2-0_with_";
    assert "clip_upscaled_by_2-0_with_" + "ESRGAN" == "clip_upscaled_by_2-0_with_ESRGAN";
    assert "clip_upscaled_by_2-0_with_ESRGAN" + "" == "clip_upscaled_by_2-0_with_ESRGAN";
    assert "clip_upscaled_by_2-0_with_ESRGAN" + ".mp4" == "clip_upscaled_by_2-0_with_ESRGAN.mp4";
  }

  lemma DecimalExamples()
    ensures NatToString(1920) == "1920" && NatToString(1080) == "1080"
  {
    assert DigitChar(0) == '0' && DigitChar(1) == '1' && DigitChar(2) == '2';
    assert DigitChar(8) == '8' && DigitChar(9) == '9';
    assert NatToString(19) == NatToString(1) + [DigitChar(9)];
    assert NatToString(192) == NatToString(19) + [DigitChar(2)];
    assert NatToString(1920) == NatToString(192) + [DigitChar(0)];
    assert NatToString(10) == NatToString(1) + [DigitChar(0)];
    assert NatToString(108) == NatToString(10) + [DigitChar(8)];
    assert NatToString(1080) == NatToString(108) + [DigitChar(0)];
  }

  /** Resizing to 1920x1080 with ESRGAN and no second stage gives `clip_upscaled_to_1920_1080_with_ESRGAN.mp4`. */
  lemma SizeNameExample()
    ensures VideoFileName("clip", UpscaleSettings(1, "", 1920, 1080, false, "ESRGAN", "", 0.0), false)
            == "clip_upscaled_to_1920_1080_with_ESRGAN.mp4"
  {
    var st := UpscaleSettings(1, "", 1920, 1080, false, "ESRGAN", "", 0.0);
    DecimalExamples();
    assert IntToString(1920) == "1920" && IntToString(1080) == "1080";
    assert "to_" + "1920" == "to_1920";
    assert "to_1920" + "_" == "to_1920_";
    assert "to_1920_" + "1080" == "to_1920_1080";
    assert ResizeTag(st) == "to_1920_1080";
    assert "clip" + "_upscaled_" == "clip_upscaled_";
    assert "clip_upscaled_" + "to_1920_1080" == "clip_upscaled_to_1920_1080";
    assert "clip_upscaled_to_1920_1080" + "_with_" == "clip_upscaled_to_1920_1080_with_";
    assert "clip_upscaled_to_1920_1080_with_" + "ESRGAN" == "clip_upscaled_to_1920_1080_with_ESRGAN";
    assert "clip_upscaled_to_1920_1080_with_ESRGAN" + "" == "clip_upscaled_to_1920_1080_with_ESRGAN";
    assert "clip_upscaled_to_1920_1080_with_ESRGAN" + ".mp4" == "clip_upscaled_to_1920_1080_with_ESRGAN.mp4";
  }
}

=== FILE: paths.dfy ===
/**
  POSIX path strings as Python's `posixpath` treats them: `join` of two
  components, `dirname`, `basename`, and the "lies inside this directory"
  relation that `shutil.rmtree` and `shutil.move` act on.
 */
module PathNames {

  /** A single path component: non-empty, no separator. */
  predicate IsName(s: string) { s != [] && '/' !in s }

  /** A directory path the core builds on: non-empty and not ending in a separator. */
  predicate IsDirPath(d: string) { d != [] && d[|d| - 1] != '/' }

  /** `os.path.join(a, b)`: an absolute b replaces a; otherwise one separator between them. */
  function Join(a: string, b: string): (p: string)
    ensures IsDirPath(a) && b != [] && b[0] != '/' ==> p == a + "/" + b
  {
    if b != [] && b[0] == '/' then b
    else if a == [] || a[|a| - 1] == '/' then a + b
    else a + "/" + b
  }

  /** p is d itself or lies somewhere below it. */
  predicate Under(p: string, d: string) { p == d || d + "/" <= p }

  /** Index of the last separator in p, or -1 when p has none. */
  function LastSlash(p: string): (k: int)
    ensures -1 <= k < |p|
    ensures k >= 0 ==> p[k] == '/'
    ensures forall j :: k < j < |p| ==> p[j] != '/'
  {
    if p == [] then -1
    else if p[|p| - 1] == '/' then |p| - 1
    else LastSlash(p[..|p| - 1])
  }

  predicate AllSlashes(s: string) { forall i :: 0 <= i < |s| ==> s[i] == '/' }

  function StripTrailingSlashes(s: string): (r: string)
    ensures r <= s
    ensures r == [] || r[|r| - 1] != '/'
    ensures forall j :: |r| <= j < |s| ==> s[j] == '/'
  {
    if s != [] && s[|s| - 1] == '/' then StripTrailingSlashes(s[..|s| - 1]) else s
  }

  /** `os.path.dirname(p)`: everything before the last separator, trailing separators removed unless that is all there is. */
  function Dirname(p: string): string
  {
    var head := p[..LastSlash(p) + 1];
    if head != [] && !AllSlashes(head) then StripTrailingSlashes(head) else head
  }

  /** `os.path.basename(p)`: everything after the last separator. */
  function Basename(p: string): string
  {
    p[LastSlash(p) + 1..]
  }

  /** Joining a directory and a name can be taken apart again by `dirname` and `basename`. */
  lemma SplitJoin(d: string, n: string)
    requires IsDirPath(d) && IsName(n)
    ensures Dirname(Join(d, n)) == d
    ensures Basename(Join(d, n)) == n
  {
    var p := d + "/" + n;
    assert LastSlash(p) == |d| by {
      assert p[|d|] == '/';
      forall j | |d| < j < |p| ensures p[j] != '/' {
        assert p[j] == n[j - |d| - 1];
      }
      LastSlashIs(p, |d|);
    }
    var head := p[..|d| + 1];
    assert head == d + "/";
    assert !AllSlashes(head) by { assert head[|d| - 1] == d[|d| - 1]; }
    assert head[..|head| - 1] == d;
    assert p[|d| + 1..] == n;
  }

  lemma LastSlashIs(p: string, k: int)
    requires 0 <= k < |p| && p[k] == '/'
    requires forall j :: k < j < |p| ==> p[j] != '/'
    ensures LastSlash(p) == k
  {
  }

  /** Everything inside the tree of a child of d is inside the tree of d. */
  lemma UnderChild(p: string, d: string, n: string)
    requires IsDirPath(d) && IsName(n)
    requires Under(p, Join(d, n))
    ensures Under(p, d) && p != d
  {
    var c := d + "/" + n;
    if p != c {
      assert p[..|c| + 1] == c + "/";
      assert p[..|d| + 1] == (c + "/")[..|d| + 1] == d + "/";
    }
  }

  /** A tree inside a tree inside d is inside d. */
  lemma UnderTrans(p: string, q: string, d: string)
    requires Under(p, q) && Under(q, d)
    ensures Under(p, d)
  {
    if p != q && q != d {
      assert p[..|d| + 1] == q[..|d| + 1];
    }
  }

  /** A name joined to a directory path lies strictly inside it. */
  lemma JoinUnder(d: string, n: string)
    requires IsDirPath(d) && IsName(n)
    ensures Under(Join(d, n), d) && Join(d, n) != d
  {
    assert Join(d, n)[..|d| + 1] == d + "/";
  }

  /** Two trees that share a path are nested one inside the other. */
  lemma SharedPathNests(p: string, a: string, b: string)
    requires Under(p, a) && Under(p, b)
    ensures Under(a, b) || Under(b, a)
  {
    if p != a && p != b {
      var a' := a + "/";
      var b' := b + "/";
      assert p[..|a'|] == a' && p[..|b'|] == b';
      if |a| == |b| {
        assert a == a'[..|a|] == b'[..|b|] == b;
      } else if |a| < |b| {
        assert b[..|a'|] == p[..|a'|];
      } else {
        assert a[..|b'|] == p[..|b'|];
      }
    }
  }

  /** Two directories neither of which contains the other have no path in common. */
  lemma DisjointTrees(a: string, b: string, p: string)
    requires !Under(a, b) && !Under(b, a)
    requires Under(p, a)
    ensures !Under(p, b)
  {
    if Under(p, b) {
      SharedPathNests(p, a, b);
    }
  }

  /** Distinct children of one directory head disjoint trees. */
  lemma SiblingsDisjoint(d: string, x: string, y: string)
    requires IsDirPath(d) && IsName(x) && IsName(y) && x != y
    ensures !Under(Join(d, x), Join(d, y)) && !Under(Join(d, y), Join(d, x))
  {
    var px := d + "/" + x;
    var py := d + "/" + y;
    assert px[|d| + 1..] == x && py[|d| + 1..] == y;
    if |y| < |x| {
      assert px[|py|] == x[|y|];
    }
    if |x| < |y| {
      assert py[|px|] == y[|x|];
    }
  }

  /** Neither tree contains the other. */
  predicate Apart(a: string, b: string) { !Under(a, b) && !Under(b, a) }

  /** Every path inside a child of d is strictly inside d. */
  lemma UnderChildren(d: string, n: string)
    requires IsDirPath(d) && IsName(n)
    ensures forall p :: Under(p, Join(d, n)) ==> Under(p, d) && p != d
  {
    forall p | Under(p, Join(d, n)) ensures Under(p, d) && p != d {
      UnderChild(p, d, n);
    }
  }

  /** A tree apart from b is apart from every child of b. */
  lemma ApartBelow(a: string, b: string, n: string)
    requires Apart(a, b) && IsDirPath(b) && IsName(n)
    ensures Apart(a, Join(b, n))
  {
    UnderChildren(b, n);
    assert Under(Join(b, n), b) by {
      assert Join(b, n)[..|b| + 1] == b + "/";
    }
    DisjointTrees(b, a, Join(b, n));
  }

  /** A child of d never lies strictly inside a sibling of itself. */
  lemma ChildNotBelowSibling(d: string, x: string, y: string)
    requires IsDirPath(d) && IsName(x) && IsName(y)
    ensures !(Join(d, y) + "/" <= Join(d, x))
  {
    var px := d + "/" + x;
    var py := d + "/" + y + "/";
    if |py| <= |px| {
      var k := |d| + 1 + |y|;
      assert px[k] == x[|y|];
      assert py[k] == '/';
    }
  }
}

=== FILE: pipeline.dfy ===
/**
  `process_video_upscaling` and `process_upscale_vid_upload_logic`: the whole
  job from the raw frames to the video, with the cleanup of the temporary
  conversion folder, the upscaled frames and the raw folder.
 */
module Pipeline {
  import opened Common
  import opened Decimal
  import opened PathNames
  import opened Storage
  import opened FrameList
  import opened Naming
  import opened Stitching
  import opened UpscaleLoop
  import opened Allocation

  /** A raw frames folder as both callers pass it: a named folder inside a parent folder. */
  predicate RawLayout(raw: string)
  {
    IsDirPath(Dirname(raw)) && IsName(Basename(raw)) && raw == Join(Dirname(raw), Basename(raw))
  }

  /** The strings that end up inside output names carry no separator. */
  predicate PlainNames(origVidName: Option<string>, batchId: Option<string>, st: UpscaleSettings)
  {
    NoSlash(JobId(origVidName, batchId)) && NoSlash(st.scaleText) && NoSlash(st.upscaler1) && NoSlash(st.upscaler2)
  }

  /** The video file name `stitch_video` chooses. */
  function VideoName(origVidName: Option<string>, batchId: Option<string>, st: UpscaleSettings): string
  {
    VideoFileName(JobId(origVidName, batchId), st, origVidName.None? || st.visibility2 > 0.0)
  }

  /** The name of the upscaled-frames folder inside the raw folder. */
  function FramesName(origVidName: Option<string>, batchId: Option<string>): string
  {
    "upscaled_frames_" + JobId(origVidName, batchId)
  }

  lemma VideoNameLength(origVidName: Option<string>, batchId: Option<string>, st: UpscaleSettings)
    ensures |VideoName(origVidName, batchId, st)| > |FramesName(origVidName, batchId)|
    ensures var v := VideoName(origVidName, batchId, st); v[|v| - 1] == '4'
  {
    assert |ResizeTag(st)| >= 3;
  }

  lemma StripDirPath(d: string)
    requires IsDirPath(d)
    ensures StripTrailingSlashes(d) == d
  {
  }

  /**
    Where a job's folders lie, for a raw folder `<g>/<b>`: the conversion folder and
    the frames folder are sibling children of the raw folder, apart from each other.
   */
  lemma FolderPlaces(raw: string, origVidName: Option<string>, batchId: Option<string>)
    requires RawLayout(raw) && NoSlash(JobId(origVidName, batchId))
    ensures var g := Dirname(raw);
            var temp := TempConvertDir(raw);
            var custom := UpscaledFramesDir(raw, origVidName, batchId);
            && IsDirPath(raw) && raw == g + "/" + Basename(raw)
            && IsDirPath(temp) && temp == Join(raw, "tmp_upscale_folder")
            && IsName(FramesName(origVidName, batchId))
            && IsDirPath(custom) && custom == Join(raw, FramesName(origVidName, batchId))
            && Basename(StripTrailingSlashes(custom)) == FramesName(origVidName, batchId)
            && Apart(custom, temp)
            && !Under(raw, temp) && !Under(raw, custom) && !Under(g, temp) && !Under(g, custom)
  {
    var g := Dirname(raw);
    var u := FramesName(origVidName, batchId);
    RawIsDirPath(raw);
    UpscaledFramesDirPlacement(raw, origVidName, batchId);
    ChildFolder(g, raw, u);
    ChildFolder(g, raw, "tmp_upscale_folder");
  }

  lemma RawIsDirPath(raw: string)
    requires RawLayout(raw)
    ensures IsDirPath(raw) && raw == Dirname(raw) + "/" + Basename(raw) && |Dirname(raw)| < |raw|
  {
    var b := Basename(raw);
    assert raw[|raw| - 1] == b[|b| - 1];
  }

  /** A child folder of d is a directory path below d, and below nothing shorter than d. */
  lemma ChildFolder(g: string, d: string, u: string)
    requires IsDirPath(d) && IsName(u) && |g| < |d|
    ensures var c := Join(d, u);
            && c == d + "/" + u && IsDirPath(c)
            && Basename(StripTrailingSlashes(c)) == u
            && !Under(d, c) && !Under(g, c)
  {
    var c := Join(d, u);
    assert c[|c| - 1] == u[|u| - 1];
    StripDirPath(c);
    SplitJoin(d, u);
  }

  /** The video lies beside the raw folder (video job) or inside it (batch job), outside both work folders. */
  lemma VideoPlace(raw: string, origVidName: Option<string>, batchId: Option<string>, st: UpscaleSettings)
    requires RawLayout(raw) && PlainNames(origVidName, batchId, st)
    ensures var g := Dirname(raw);
            var mp4 := Mp4Path(UpscaledFramesDir(raw, origVidName, batchId), batchId, origVidName, st);
            var v := VideoName(origVidName, batchId, st);
            && IsName(v) && mp4 == Join(if origVidName.Some? then g else raw, v) && Basename(mp4) == v
            && mp4[|mp4| - 1] == '4'
            && !Under(mp4, TempConvertDir(raw)) && !Under(mp4, UpscaledFramesDir(raw, origVidName, batchId))
  {
    var g := Dirname(raw);
    var b := Basename(raw);
    var u := FramesName(origVidName, batchId);
    var v := VideoName(origVidName, batchId, st);
    var custom := UpscaledFramesDir(raw, origVidName, batchId);
    var mp4 := Mp4Path(custom, batchId, origVidName, st);
    var folder := if origVidName.Some? then g else raw;
    assert IsDirPath(raw) && IsName(u) && custom == Join(raw, u) by {
      FolderPlaces(raw, origVidName, batchId);
    }
    assert IsName(v) && mp4 == Join(folder, v) by {
      Mp4Placement(g, b, u, batchId, origVidName, st);
    }
    VideoNameLength(origVidName, batchId, st);
    NamedIn(folder, v);
    if origVidName.Some? {
      VideoBesideRaw(raw, v, u);
    } else {
      VideoInsideRaw(raw, v, u);
    }
  }

  /** A name joined to a folder ends the path, with the name's own last character. */
  lemma NamedIn(folder: string, v: string)
    requires IsDirPath(folder) && IsName(v)
    ensures var p := Join(folder, v); Basename(p) == v && p[|p| - 1] == v[|v| - 1]
  {
    SplitJoin(folder, v);
  }

  /** A name in the raw folder that is neither work folder's name lies inside neither. */
  lemma VideoInsideRaw(raw: string, v: string, u: string)
    requires IsDirPath(raw) && IsName(v) && IsName(u) && |v| > |u| && v[|v| - 1] == '4'
    ensures !Under(Join(raw, v), Join(raw, "tmp_upscale_folder")) && !Under(Join(raw, v), Join(raw, u))
  {
    assert v != "tmp_upscale_folder" by { assert "tmp_upscale_folder"[17] == 'r'; }
    SiblingsDisjoint(raw, v, "tmp_upscale_folder");
    SiblingsDisjoint(raw, v, u);
  }

  /** A name beside the raw folder lies inside no child of it. */
  lemma VideoBesideRaw(raw: string, v: string, u: string)
    requires RawLayout(raw) && IsName(v) && IsName(u)
    ensures !Under(Join(Dirname(raw), v), Join(raw, "tmp_upscale_folder"))
    ensures !Under(Join(Dirname(raw), v), Join(raw, u))
  {
    var g := Dirname(raw);
    assert IsDirPath(raw) by { assert raw[|raw| - 1] == Basename(raw)[|Basename(raw)| - 1]; }
    ChildNotBelowSibling(g, v, Basename(raw));
    UnderChildren(raw, "tmp_upscale_folder");
    UnderChildren(raw, u);
  }

  /** Where a video job moves its frames: beside the raw folder, apart from it and from all inside it. */
  lemma MovedFramesPlace(raw: string, origVidName: Option<string>, batchId: Option<string>)
    requires RawLayout(raw) && NoSlash(JobId(origVidName, batchId))
    requires FramesName(origVidName, batchId) != Basename(raw)
    ensures var target := Join(Dirname(raw), FramesName(origVidName, batchId));
            && Apart(target, raw)
            && Apart(target, TempConvertDir(raw))
            && Apart(target, UpscaledFramesDir(raw, origVidName, batchId))
  {
    var g := Dirname(raw);
    var u := FramesName(origVidName, batchId);
    UpscaledFramesDirPlacement(raw, origVidName, batchId);
    assert IsName(u);
    assert IsDirPath(raw) by { assert raw[|raw| - 1] == Basename(raw)[|Basename(raw)| - 1]; }
    SiblingsDisjoint(g, u, Basename(raw));
    ApartBelow(Join(g, u), raw, "tmp_upscale_folder");
    ApartBelow(Join(g, u), raw, u);
  }

  /** Removing a tree apart from the frames folder keeps every frame. */
  lemma HoldsFramesPrune(files: map<string, Content>, dir: string, imgs: seq<Image>, d: string)
    requires HoldsFrames(files, dir, imgs) && Apart(dir, d)
    ensures HoldsFrames(PruneFiles(files, d), dir, imgs)
  {
    forall i | 0 <= i < |imgs| ensures !Under(FramePath(dir, i), d) {
      FrameOutside(dir, d, i);
    }
  }

  /** Writing a file that does not end in `g` (no `.png`) keeps every frame. */
  lemma HoldsFramesSave(files: map<string, Content>, dir: string, imgs: seq<Image>, p: string, c: Content)
    requires HoldsFrames(files, dir, imgs)
    requires p != [] && p[|p| - 1] != 'g'
    ensures HoldsFrames(files[p := c], dir, imgs)
  {
    forall i | 0 <= i < |imgs| ensures FramePath(dir, i) != p {
      var f := FramePath(dir, i);
      assert f[|f| - 1] == 'g';
    }
  }

  /** Renaming the frames folder carries every frame, under its own name, to the new folder. */
  lemma HoldsFramesMove(files: map<string, Content>, src: string, target: string, imgs: seq<Image>)
    requires HoldsFrames(files, src, imgs)
    ensures HoldsFrames(MovedFiles(files, src, target), target, imgs)
  {
    forall i | 0 <= i < |imgs|
      ensures FramePath(target, i) in MovedFiles(files, src, target)
      ensures MovedFiles(files, src, target)[FramePath(target, i)] == Picture(imgs[i])
    {
      FrameMoves(files, src, target, i);
    }
  }

  lemma FrameMoves(files: map<string, Content>, src: string, target: string, i: nat)
    requires FramePath(src, i) in files
    ensures FramePath(target, i) in MovedFiles(files, src, target)
    ensures MovedFiles(files, src, target)[FramePath(target, i)] == files[FramePath(src, i)]
  {
    var p := FramePath(src, i);
    assert Under(p, src) by { assert p[..|src| + 1] == src + "/"; }
    assert Rebase(p, src, target) == FramePath(target, i) by {
      assert p[|src|..] == "/" + FrameFileName(i);
    }
    MoveCarriesFiles(files, src, target, p);
  }


  /** Renaming a tree to a place apart from t puts nothing inside t. */
  lemma MoveKeepsVacant(dirs: set<string>, files: map<string, Content>, src: string, target: string, t: string)
    requires Vacant(dirs + files.Keys, t) && Apart(target, t)
    ensures Vacant(MovedDirs(dirs, src, target) + MovedFiles(files, src, target).Keys, t)
  {
    forall p | Under(p, src) ensures !Under(Rebase(p, src, target), t) {
      RebaseUnder(p, src, target);
      DisjointTrees(target, t, Rebase(p, src, target));
    }
  }

  /** A move to a target apart from the source leaves nothing at or below the source. */
  lemma MoveVacatesSource(dirs: set<string>, files: map<string, Content>, src: string, target: string)
    requires Apart(target, src)
    ensures Vacant(MovedDirs(dirs, src, target) + MovedFiles(files, src, target).Keys, src)
  {
    forall p | Under(p, src) ensures !Under(Rebase(p, src, target), src) {
      RebaseUnder(p, src, target);
      DisjointTrees(target, src, Rebase(p, src, target));
    }
  }

  /** A video file name never names the frames folder: it is longer. */
  lemma VideoApartFromMovedFrames(raw: string, origVidName: Option<string>, batchId: Option<string>, st: UpscaleSettings)
    requires RawLayout(raw) && PlainNames(origVidName, batchId, st)
    ensures Apart(Join(Dirname(raw), VideoName(origVidName, batchId, st)), Join(Dirname(raw), FramesName(origVidName, batchId)))
    ensures VideoName(origVidName, batchId, st) != Basename(raw) ==>
              Apart(Join(Dirname(raw), VideoName(origVidName, batchId, st)), raw)
  {
    VideoPlace(raw, origVidName, batchId, st);
    FolderPlaces(raw, origVidName, batchId);
    VideoNameLength(origVidName, batchId, st);
    SiblingsDisjoint(Dirname(raw), VideoName(origVidName, batchId, st), FramesName(origVidName, batchId));
    if VideoName(origVidName, batchId, st) != Basename(raw) {
      SiblingsDisjoint(Dirname(raw), VideoName(origVidName, batchId, st), Basename(raw));
    }
  }

  /** The state left after the conversion folder is removed: what the stitching step starts from. */
  predicate ReadyToStitch(dirs: set<string>, files: map<string, Content>, raw: string, origVidName: Option<string>,
                          batchId: Option<string>, st: UpscaleSettings, imgs: seq<Image>)
  {
    && RawLayout(raw) && PlainNames(origVidName, batchId, st)
    && Vacant(dirs + files.Keys, TempConvertDir(raw))
    && raw in dirs && Dirname(raw) in dirs
    && HoldsFrames(files, UpscaledFramesDir(raw, origVidName, batchId), imgs)
  }

  /** Writing the video keeps the stitching step's starting facts. */
  lemma EncodeKeepsReady(dirs: set<string>, files: map<string, Content>, raw: string, origVidName: Option<string>,
                         batchId: Option<string>, st: UpscaleSettings, imgs: seq<Image>, req: EncodeRequest, ok: bool)
    requires ReadyToStitch(dirs, files, raw, origVidName, batchId, st, imgs)
    requires req.outPath == Mp4Path(UpscaledFramesDir(raw, origVidName, batchId), batchId, origVidName, st)
    ensures ReadyToStitch(dirs, Encoded(files, req, ok), raw, origVidName, batchId, st, imgs)
  {
    VideoPlace(raw, origVidName, batchId, st);
    if ok {
      HoldsFramesSave(files, UpscaledFramesDir(raw, origVidName, batchId), imgs, req.outPath, Movie(req.imgsPattern));
    }
  }

  /** After the frames folder is deleted: nothing in it or in the conversion folder, raw folder and video kept. */
  lemma DeletedAftermath(dirs: set<string>, files: map<string, Content>, raw: string, origVidName: Option<string>,
                         batchId: Option<string>, st: UpscaleSettings, imgs: seq<Image>)
    requires ReadyToStitch(dirs, files, raw, origVidName, batchId, st, imgs)
    ensures var custom := UpscaledFramesDir(raw, origVidName, batchId);
            var mp4 := Mp4Path(custom, batchId, origVidName, st);
            var dirs2 := PruneDirs(dirs, custom);
            var files2 := PruneFiles(files, custom);
            && Vacant(dirs2 + files2.Keys, TempConvertDir(raw))
            && Vacant(dirs2 + files2.Keys, custom)
            && raw in dirs2
            && (mp4 in files ==> mp4 in files2 && files2[mp4] == files[mp4])
  {
    var custom := UpscaledFramesDir(raw, origVidName, batchId);
    var mp4 := Mp4Path(custom, batchId, origVidName, st);
    assert !Under(raw, custom) by { FolderPlaces(raw, origVidName, batchId); }
    assert !Under(mp4, custom) by { VideoPlace(raw, origVidName, batchId, st); }
    PruneAftermath(dirs, files, custom, TempConvertDir(raw), mp4);
  }

  /**
    After a video job's frames folder is moved up beside the raw folder: nothing in the
    conversion folder, raw folder and video kept, every frame at the new place.
   */
  lemma MovedAftermath(dirs: set<string>, files: map<string, Content>, raw: string, origVidName: Option<string>,
                       batchId: Option<string>, st: UpscaleSettings, imgs: seq<Image>)
    requires ReadyToStitch(dirs, files, raw, origVidName, batchId, st, imgs) && origVidName.Some?
    requires Vacant(dirs + files.Keys, Join(Dirname(raw), FramesName(origVidName, batchId)))
    ensures var custom := UpscaledFramesDir(raw, origVidName, batchId);
            var mp4 := Mp4Path(custom, batchId, origVidName, st);
            var target := Join(Dirname(raw), FramesName(origVidName, batchId));
            var dirs2 := MovedDirs(dirs, custom, target);
            var files2 := MovedFiles(files, custom, target);
            && Vacant(dirs2 + files2.Keys, TempConvertDir(raw))
            && Vacant(dirs2 + files2.Keys, custom)
            && raw in dirs2
            && Apart(target, raw)
            && HoldsFrames(files2, target, imgs)
            && (mp4 in files ==> mp4 in files2 && files2[mp4] == files[mp4])
  {
    var custom := UpscaledFramesDir(raw, origVidName, batchId);
    var target := Join(Dirname(raw), FramesName(origVidName, batchId));
    var mp4 := Mp4Path(custom, batchId, origVidName, st);
    FolderPlaces(raw, origVidName, batchId);
    VideoPlace(raw, origVidName, batchId, st);
    assert raw != target;
    MovedFramesPlace(raw, origVidName, batchId);
    HoldsFramesMove(files, custom, target, imgs);
    MoveKeepsVacant(dirs, files, custom, target, TempConvertDir(raw));
    MoveVacatesSource(dirs, files, custom, target);
    VideoApartFromMovedFrames(raw, origVidName, batchId, st);
    if mp4 in files {
      MoveKeepsOthers(files, custom, target, mp4);
    }
  }

  /** Removing a tree empties it, puts nothing new anywhere, and keeps every file outside it. */
  lemma PruneAftermath(dirs: set<string>, files: map<string, Content>, d: string, t: string, p: string)
    requires Vacant(dirs + files.Keys, t)
    ensures Vacant(PruneDirs(dirs, d) + PruneFiles(files, d).Keys, t)
    ensures Vacant(PruneDirs(dirs, d) + PruneFiles(files, d).Keys, d)
    ensures p in files && !Under(p, d) ==> p in PruneFiles(files, d) && PruneFiles(files, d)[p] == files[p]
  {
  }

  /** The state after lines 70-77, from the stitching outcome, as the cleanup policy lays it out. */
  predicate JobSettled(dirs: set<string>, files: map<string, Content>, raw: string, imgs: seq<Image>,
                       batchId: Option<string>, keepImgs: bool, origVidName: Option<string>, stitch: StitchOutcome)
  {
    var custom := UpscaledFramesDir(raw, origVidName, batchId);
    var videoJob := origVidName.Some?;
    && Vacant(dirs + files.Keys, TempConvertDir(raw))
    && (videoJob && stitch.Returned? ==> Vacant(dirs + files.Keys, raw))
    && (!(videoJob && stitch.Returned?) ==> raw in dirs)
    && (stitch.Raised? ==> HoldsFrames(files, custom, imgs))
    && (stitch.Returned? ==>
          match IntendedFate(stitch.exceptionRaised, keepImgs, videoJob)
          case Deleted => Vacant(dirs + files.Keys, custom)
          case MovedUp => HoldsFrames(files, Join(Dirname(raw), FramesName(origVidName, batchId)), imgs)
          case LeftInPlace => HoldsFrames(files, custom, imgs))
  }

  /** The state `stitch_video` leaves (line 72), before the raw folder is removed. */
  predicate Stitched(dirs: set<string>, files: map<string, Content>, raw: string, imgs: seq<Image>,
                     batchId: Option<string>, keepImgs: bool, origVidName: Option<string>, stitch: StitchOutcome)
  {
    var custom := UpscaledFramesDir(raw, origVidName, batchId);
    && Vacant(dirs + files.Keys, TempConvertDir(raw))
    && raw in dirs
    && (stitch.Raised? ==> HoldsFrames(files, custom, imgs))
    && (stitch.Returned? ==>
          match IntendedFate(stitch.exceptionRaised, keepImgs, origVidName.Some?)
          case Deleted => Vacant(dirs + files.Keys, custom)
          case MovedUp =>
            var target := Join(Dirname(raw), FramesName(origVidName, batchId));
            HoldsFrames(files, target, imgs) && Apart(target, raw) && Vacant(dirs + files.Keys, custom)
          case LeftInPlace => HoldsFrames(files, custom, imgs))
  }

  /**
    The trees `stitch_video` may change: the video file always, and the frames folder (and
    its new place beside the raw folder) when it deletes or moves the frames.
   */
  function StitchTouched(raw: string, origVidName: Option<string>, batchId: Option<string>, st: UpscaleSettings,
                         keepImgs: bool, stitch: StitchOutcome): set<string>
  {
    var custom := UpscaledFramesDir(raw, origVidName, batchId);
    {Mp4Path(custom, batchId, origVidName, st)} +
    if stitch.Raised? then {}
    else match IntendedFate(stitch.exceptionRaised, keepImgs, origVidName.Some?)
      case Deleted => {custom}
      case MovedUp => {custom, Join(Dirname(raw), FramesName(origVidName, batchId))}
      case LeftInPlace => {}
  }

  /** What lines 70-77 may change: what `stitch_video` may, and the raw folder once a video job's stitching returned. */
  function TidyTouched(raw: string, origVidName: Option<string>, batchId: Option<string>, st: UpscaleSettings,
                       keepImgs: bool, stitch: StitchOutcome): set<string>
  {
    StitchTouched(raw, origVidName, batchId, st, keepImgs, stitch) +
    if origVidName.Some? && stitch.Returned? then {raw} else {}
  }

  /**
    Line 72: `stitch_video` on the upscaled frames. The encoder's failure is recorded, and
    the frames are deleted, moved up beside the raw folder or left in place as the
    cleanup policy says; the raw folder and the emptied conversion folder are untouched.
   */
  method StitchInPlace(fs: FileSystem, raw: string, ghost imgs: seq<Image>, batchId: Option<string>, fps: real,
                       audioPath: Option<string>, ffmpegLocation: string, st: UpscaleSettings, crf: int, preset: string,
                       keepImgs: bool, origVidName: Option<string>, encode: EncodeRequest -> bool)
    returns (stitch: StitchOutcome)
    requires ReadyToStitch(fs.dirs, fs.files, raw, origVidName, batchId, st, imgs)
    modifies fs
    ensures Stitched(fs.dirs, fs.files, raw, imgs, batchId, keepImgs, origVidName, stitch)
    ensures ConfinedTo(old(fs.dirs), old(fs.files), fs.dirs, fs.files,
                       StitchTouched(raw, origVidName, batchId, st, keepImgs, stitch), {})
    ensures var custom := UpscaledFramesDir(raw, origVidName, batchId);
            var mp4 := Mp4Path(custom, batchId, origVidName, st);
            && (stitch.Returned? ==>
                  stitch.mp4Path == mp4 &&
                  stitch.exceptionRaised == !encode(StitchRequest(ffmpegLocation, fps, custom, audioPath, crf, preset, mp4)))
            && (stitch.Returned? && !stitch.exceptionRaised ==>
                  mp4 in fs.files && fs.files[mp4] == Movie(EncoderPattern(custom)))
  {
    var custom := UpscaledFramesDir(raw, origVidName, batchId);
    var mp4 := Mp4Path(custom, batchId, origVidName, st);
    var req := StitchRequest(ffmpegLocation, fps, custom, audioPath, crf, preset, mp4);
    ghost var target := Join(Dirname(raw), FramesName(origVidName, batchId));
    assert MoveTarget(fs.dirs, custom, Dirname(Dirname(custom))) == target by {
      FolderPlaces(raw, origVidName, batchId);
      SplitJoin(raw, FramesName(origVidName, batchId));
    }
    ghost var dirs1 := fs.dirs;
    ghost var files1 := fs.files;
    ghost var encoded := Encoded(fs.files, req, encode(req));
    EncodeKeepsReady(dirs1, fs.files, raw, origVidName, batchId, st, imgs, req, encode(req));
    DeletedAftermath(dirs1, encoded, raw, origVidName, batchId, st, imgs);
    assert ConfinedTo(dirs1, files1, dirs1, encoded, {mp4}, {}) by {
      SaveConfined(dirs1, files1, mp4, Movie(req.imgsPattern));
    }
    stitch := StitchVideo(fs, batchId, fps, custom, audioPath, ffmpegLocation, st, crf, preset, keepImgs, origVidName, encode);
    ghost var fate := if stitch.Returned? then IntendedFate(stitch.exceptionRaised, keepImgs, origVidName.Some?) else LeftInPlace;
    ghost var touched := StitchTouched(raw, origVidName, batchId, st, keepImgs, stitch);
    if stitch.Returned? && fate == MovedUp {
      MovedAftermath(dirs1, encoded, raw, origVidName, batchId, st, imgs);
      MoveConfined(dirs1, encoded, custom, target);
      ConfinedCompose(dirs1, files1, dirs1, encoded, fs.dirs, fs.files, {mp4}, {}, {custom, target}, {}, touched, {});
    } else if stitch.Returned? && fate == Deleted {
      PruneConfined(dirs1, encoded, custom);
      ConfinedCompose(dirs1, files1, dirs1, encoded, fs.dirs, fs.files, {mp4}, {}, {custom}, {}, touched, {});
    } else {
      ConfinedWiden(dirs1, files1, fs.dirs, fs.files, {mp4}, {}, touched, {});
    }
  }

  /**
    Lines 74-75 after a video job's stitching returned: removing the raw folder takes the
    conversion folder and, when deleted, the frames folder with it, and keeps the frames
    moved up beside it and a video that does not bear the raw folder's own name.
   */
  lemma RawRemoved(dirs: set<string>, files: map<string, Content>, raw: string, imgs: seq<Image>,
                   batchId: Option<string>, keepImgs: bool, origVidName: Option<string>, st: UpscaleSettings,
                   stitch: StitchOutcome)
    requires RawLayout(raw) && PlainNames(origVidName, batchId, st)
    requires Stitched(dirs, files, raw, imgs, batchId, keepImgs, origVidName, stitch)
    requires origVidName.Some? && stitch.Returned?
    ensures JobSettled(PruneDirs(dirs, raw), PruneFiles(files, raw), raw, imgs, batchId, keepImgs, origVidName, stitch)
    ensures var mp4 := Mp4Path(UpscaledFramesDir(raw, origVidName, batchId), batchId, origVidName, st);
            mp4 in files && VideoName(origVidName, batchId, st) != Basename(raw) ==>
              mp4 in PruneFiles(files, raw) && PruneFiles(files, raw)[mp4] == files[mp4]
  {
    var custom := UpscaledFramesDir(raw, origVidName, batchId);
    var mp4 := Mp4Path(custom, batchId, origVidName, st);
    var temp := TempConvertDir(raw);
    PruneAftermath(dirs, files, raw, temp, mp4);
    if IntendedFate(stitch.exceptionRaised, keepImgs, true) == Deleted {
      PruneAftermath(dirs, files, raw, custom, mp4);
    }
    if IntendedFate(stitch.exceptionRaised, keepImgs, true) == MovedUp {
      HoldsFramesPrune(files, Join(Dirname(raw), FramesName(origVidName, batchId)), imgs, raw);
    }
    if VideoName(origVidName, batchId, st) != Basename(raw) {
      assert !Under(mp4, raw) by {
        VideoPlace(raw, origVidName, batchId, st);
        VideoApartFromMovedFrames(raw, origVidName, batchId, st);
      }
    }
  }

  /**
    Lines 70-77: stitch the video and, for a video job whose stitching returned, remove
    the raw folder; whatever `stitch_video` raises is caught.
   */
  method StitchAndTidy(fs: FileSystem, raw: string, ghost imgs: seq<Image>, batchId: Option<string>, fps: real,
                       audioPath: Option<string>, ffmpegLocation: string, st: UpscaleSettings, crf: int, preset: string,
                       keepImgs: bool, origVidName: Option<string>, encode: EncodeRequest -> bool)
    returns (stitch: StitchOutcome)
    requires ReadyToStitch(fs.dirs, fs.files, raw, origVidName, batchId, st, imgs)
    modifies fs
    ensures JobSettled(fs.dirs, fs.files, raw, imgs, batchId, keepImgs, origVidName, stitch)
    ensures ConfinedTo(old(fs.dirs), old(fs.files), fs.dirs, fs.files,
                       TidyTouched(raw, origVidName, batchId, st, keepImgs, stitch), {})
    ensures var custom := UpscaledFramesDir(raw, origVidName, batchId);
            var mp4 := Mp4Path(custom, batchId, origVidName, st);
            && (stitch.Returned? ==>
                  stitch.mp4Path == mp4 &&
                  stitch.exceptionRaised == !encode(StitchRequest(ffmpegLocation, fps, custom, audioPath, crf, preset, mp4)))
            && (stitch.Returned? && !stitch.exceptionRaised &&
                (origVidName.None? || VideoName(origVidName, batchId, st) != Basename(raw)) ==>
                  mp4 in fs.files && fs.files[mp4] == Movie(EncoderPattern(custom)))
  {
    ghost var dirs0, files0 := fs.dirs, fs.files;
    stitch := StitchInPlace(fs, raw, imgs, batchId, fps, audioPath, ffmpegLocation, st, crf, preset, keepImgs,
                            origVidName, encode);
    ghost var touched := StitchTouched(raw, origVidName, batchId, st, keepImgs, stitch);
    if origVidName.Some? && stitch.Returned? {
      RawRemoved(fs.dirs, fs.files, raw, imgs, batchId, keepImgs, origVidName, st, stitch);
      ghost var dirs1, files1 := fs.dirs, fs.files;
      PruneConfined(dirs1, files1, raw);
      var removed := fs.RemoveTree(raw);
      ConfinedCompose(dirs0, files0, dirs1, files1, fs.dirs, fs.files, touched, {}, {raw}, {},
                      TidyTouched(raw, origVidName, batchId, st, keepImgs, stitch), {});
    } else {
      ConfinedWiden(dirs0, files0, fs.dirs, fs.files, touched, {},
                    TidyTouched(raw, origVidName, batchId, st, keepImgs, stitch), {});
    }
  }

  /**
    Lines 68-77: remove the conversion folder, then stitch and tidy up. Afterwards
    nothing is left in the conversion folder; the raw folder is gone exactly when a
    video job's stitching returned; the upscaled frames are gone, moved up beside the
    raw folder, or still in place, as the cleanup policy says; and a successful encode
    leaves the video in place unless a video job's raw folder has the video's own name.
   */
  method FinishJob(fs: FileSystem, raw: string, ghost imgs: seq<Image>, batchId: Option<string>, fps: real,
                   audioPath: Option<string>, ffmpegLocation: string, st: UpscaleSettings, crf: int, preset: string,
                   keepImgs: bool, origVidName: Option<string>, encode: EncodeRequest -> bool)
    returns (stitch: StitchOutcome)
    requires RawLayout(raw) && PlainNames(origVidName, batchId, st)
    requires TempConvertDir(raw) in fs.dirs && raw in fs.dirs && Dirname(raw) in fs.dirs
    requires HoldsFrames(fs.files, UpscaledFramesDir(raw, origVidName, batchId), imgs)
    modifies fs
    ensures JobSettled(fs.dirs, fs.files, raw, imgs, batchId, keepImgs, origVidName, stitch)
    ensures ConfinedTo(old(fs.dirs), old(fs.files), fs.dirs, fs.files,
                       {TempConvertDir(raw)} + TidyTouched(raw, origVidName, batchId, st, keepImgs, stitch), {})
    ensures var custom := UpscaledFramesDir(raw, origVidName, batchId);
            var mp4 := Mp4Path(custom, batchId, origVidName, st);
            && (stitch.Returned? ==>
                  stitch.mp4Path == mp4 &&
                  stitch.exceptionRaised == !encode(StitchRequest(ffmpegLocation, fps, custom, audioPath, crf, preset, mp4)))
            && (stitch.Returned? && !stitch.exceptionRaised &&
                (origVidName.None? || VideoName(origVidName, batchId, st) != Basename(raw)) ==>
                  mp4 in fs.files && fs.files[mp4] == Movie(EncoderPattern(custom)))
  {
    var temp := TempConvertDir(raw);
    FolderPlaces(raw, origVidName, batchId);
    HoldsFramesPrune(fs.files, UpscaledFramesDir(raw, origVidName, batchId), imgs, temp);
    ghost var dirs0, files0 := fs.dirs, fs.files;
    PruneConfined(dirs0, files0, temp);
    var removed := fs.RemoveTree(temp);
    ghost var dirs1, files1 := fs.dirs, fs.files;
    stitch := StitchAndTidy(fs, raw, imgs, batchId, fps, audioPath, ffmpegLocation, st, crf, preset, keepImgs, origVidName, encode);
    ConfinedCompose(dirs0, files0, dirs1, files1, fs.dirs, fs.files, {temp}, {},
                    TidyTouched(raw, origVidName, batchId, st, keepImgs, stitch), {},
                    {temp} + TidyTouched(raw, origVidName, batchId, st, keepImgs, stitch), {});
  }

  /** Distinct names of one folder join to distinct paths. */
  lemma JoinNamesInjective(dir: string)
    requires IsDirPath(dir)
    ensures forall x, y :: IsName(x) && IsName(y) && Join(dir, x) == Join(dir, y) ==> x == y
  {
    forall x, y | IsName(x) && IsName(y) && Join(dir, x) == Join(dir, y) ensures x == y {
      JoinInjective(dir, x, y);
    }
  }

  /** The files a foreign step (frame extraction, PNG conversion) writes into dir, one per name. */
  function FilesIn(dir: string, frames: map<string, Image>): map<string, Content>
    requires IsDirPath(dir) && forall n :: n in frames ==> IsName(n)
  {
    JoinNamesInjective(dir);
    map n | n in frames :: Join(dir, n) := Picture(frames[n])
  }

  /** Every frame a foreign step writes into dir is listed there under its own name. */
  lemma FilesInListed(dir: string, frames: map<string, Image>, paths: set<string>)
    requires IsDirPath(dir) && forall n :: n in frames ==> IsName(n)
    ensures forall n :: n in frames ==> n in ChildNames(paths + FilesIn(dir, frames).Keys, dir)
    ensures forall n :: n in frames ==> FilesIn(dir, frames)[Join(dir, n)] == Picture(frames[n])
  {
    forall n | n in frames ensures n in ChildNames(paths + FilesIn(dir, frames).Keys, dir) {
      var p := Join(dir, n);
      assert p == dir + "/" + n;
      assert p in FilesIn(dir, frames);
      assert p[|dir| + 1..] == n;
    }
    forall n | n in frames ensures FilesIn(dir, frames)[Join(dir, n)] == Picture(frames[n]) {
      JoinNamesInjective(dir);
    }
  }

  /** A listing without repeats holds each of its names exactly once. */
  lemma {:induction false} DistinctCounts(s: seq<string>)
    requires forall i, j :: 0 <= i < j < |s| ==> s[i] != s[j]
    ensures forall x :: multiset(s)[x] == if x in s then 1 else 0
  {
    if s != [] {
      DistinctCounts(s[1..]);
      assert s == [s[0]] + s[1..];
      assert s[0] !in s[1..];
    }
  }

  /** The frame list the sort produced from the names listed in the conversion folder. */
  ghost predicate FrameListOf(frames: seq<string>, listed: set<string>)
  {
    && (forall x :: multiset(frames)[x] == if x in listed && !IsDepthFile(x) then 1 else 0)
    && (forall i :: 0 <= i < |frames| ==> FrameNumber(frames[i]).Some?)
    && (forall i, j :: 0 <= i < j < |frames| ==> FrameNumber(frames[i]).value <= FrameNumber(frames[j]).value)
  }

  /** The directories `os.makedirs` leaves after creating the conversion folder. */
  function StagedDirs(dirs: set<string>, raw: string): set<string>
  {
    dirs + {TempConvertDir(raw)} + Ancestors(TempConvertDir(raw))
  }

  /** The files after `duplicate_pngs_from_folder` writes the converted frames. */
  function StagedFiles(files: map<string, Content>, raw: string, duplicated: map<string, Image>): map<string, Content>
    requires RawLayout(raw) && forall n :: n in duplicated ==> IsName(n)
  {
    FolderPlaces(raw, None, None);
    files + FilesIn(TempConvertDir(raw), duplicated)
  }

  /** What `os.listdir` reports for the conversion folder once the converted frames are in it. */
  function Listed(dirs: set<string>, files: map<string, Content>, raw: string, duplicated: map<string, Image>): set<string>
    requires RawLayout(raw) && forall n :: n in duplicated ==> IsName(n)
  {
    ChildNames(StagedDirs(dirs, raw) + StagedFiles(files, raw, duplicated).Keys, TempConvertDir(raw))
  }

  /** Creating the conversion folder creates the raw folder and its parent on the way. */
  lemma StagedDirsHoldRaw(dirs: set<string>, raw: string)
    requires RawLayout(raw)
    ensures TempConvertDir(raw) in StagedDirs(dirs, raw)
    ensures raw in StagedDirs(dirs, raw) && Dirname(raw) in StagedDirs(dirs, raw)
  {
    var g := Dirname(raw);
    var b := Basename(raw);
    var temp := TempConvertDir(raw);
    assert raw == g + "/" + b;
    assert IsDirPath(raw) by { assert raw[|raw| - 1] == b[|b| - 1]; }
    assert temp == raw + "/" + "tmp_upscale_folder";
    assert temp[..|raw|] == raw && temp[..|g|] == g;
    AncestorAt(temp, |raw|);
    AncestorAt(temp, |g|);
  }

  /**
    Staging the converted frames and creating the frames folder change nothing outside the
    conversion folder and the frames folder, except for creating the parents of the
    conversion folder.
   */
  lemma StagingConfined(dirs0: set<string>, files0: map<string, Content>, dirs1: set<string>, files1: map<string, Content>,
                        raw: string, duplicated: map<string, Image>, extra: set<string>, trees: set<string>)
    requires RawLayout(raw) && forall n :: n in duplicated ==> IsName(n)
    requires dirs1 == StagedDirs(dirs0, raw) + extra && files1 == StagedFiles(files0, raw, duplicated)
    requires TempConvertDir(raw) in trees && extra <= trees
    ensures ConfinedTo(dirs0, files0, dirs1, files1, trees, Ancestors(TempConvertDir(raw)))
  {
    var temp := TempConvertDir(raw);
    assert IsDirPath(temp) by { FolderPlaces(raw, None, None); }
    forall p | p in FilesIn(temp, duplicated) ensures Under(p, temp) {
      var n :| n in duplicated && p == Join(temp, n);
      JoinUnder(temp, n);
    }
    var made := StagedDirs(dirs0, raw);
    assert files1 == files0 + FilesIn(temp, duplicated);
    MakeDirsConfined(dirs0, files0, temp);
    AddConfined(made, files0, FilesIn(temp, duplicated), temp);
    ConfinedCompose(dirs0, files0, made, files0, made, files1, {temp}, Ancestors(temp), {temp}, {},
                    trees, Ancestors(temp));
    AddDirsConfined(made, files1, extra);
    ConfinedCompose(dirs0, files0, made, files1, dirs1, files1, trees, Ancestors(temp), extra, {},
                    trees, Ancestors(temp));
  }

  /**
    Staging, creating the frames folder and the write loop together change nothing outside
    the conversion folder and the frames folder, except for creating the parents of the
    conversion folder.
   */
  lemma UpscaledConfined(dirs0: set<string>, files0: map<string, Content>, dirs1: set<string>, files1: map<string, Content>,
                         raw: string, custom: string, duplicated: map<string, Image>, extra: set<string>,
                         written: map<string, Content>)
    requires RawLayout(raw) && forall n :: n in duplicated ==> IsName(n)
    requires extra <= {custom} && forall p :: p in written ==> Under(p, custom)
    requires dirs1 == StagedDirs(dirs0, raw) + extra && files1 == StagedFiles(files0, raw, duplicated) + written
    ensures ConfinedTo(dirs0, files0, dirs1, files1, {TempConvertDir(raw), custom}, Ancestors(TempConvertDir(raw)))
  {
    var temp := TempConvertDir(raw);
    var staged := StagedFiles(files0, raw, duplicated);
    StagingConfined(dirs0, files0, dirs1, staged, raw, duplicated, extra, {temp, custom});
    AddConfined(dirs1, staged, written, custom);
    ConfinedCompose(dirs0, files0, dirs1, staged, dirs1, files1, {temp, custom}, Ancestors(temp), {custom}, {},
                    {temp, custom}, Ancestors(temp));
  }

  /**
    Lines 48-54 on the conversion folder: list it, keep the names without `_depth_` and
    sort them by frame number, raising with a kept name that has none.
   */
  method ListAndSort(fs: FileSystem, temp: string) returns (r: Result<seq<string>, string>)
    requires temp in fs.dirs
    ensures var listed := fs.Children(temp);
            && (r.Err? <==> exists x :: x in listed && !IsDepthFile(x) && FrameNumber(x).None?)
            && (r.Err? ==> r.error in listed && !IsDepthFile(r.error) && FrameNumber(r.error).None?)
            && (r.Ok? ==> FrameListOf(r.value, listed))
  {
    var listing := fs.ListDir(temp);
    DistinctCounts(listing);
    DropDepthFilesKeeps(listing);
    r := ListFrames(listing);
    if r.Ok? {
      forall i | 0 <= i < |r.value| ensures FrameNumber(r.value[i]).Some? {
        assert r.value[i] in r.value;
      }
    }
  }

  /**
    Lines 45-58: the converted frames are written into the conversion folder, the folder
    is listed and the list sorted; only when that succeeds is the frames folder created,
    if nothing exists at its path yet. The sort raises with a kept name that has no
    integer prefix exactly when there is one.
   */
  method PrepareFrames(fs: FileSystem, raw: string, origVidName: Option<string>, batchId: Option<string>,
                       duplicated: map<string, Image>)
    returns (r: Result<seq<string>, string>)
    requires RawLayout(raw) && NoSlash(JobId(origVidName, batchId))
    requires forall n :: n in duplicated ==> IsName(n)
    modifies fs
    ensures var custom := UpscaledFramesDir(raw, origVidName, batchId);
            var made := StagedDirs(old(fs.dirs), raw);
            var staged := StagedFiles(old(fs.files), raw, duplicated);
            var listed := Listed(old(fs.dirs), old(fs.files), raw, duplicated);
            && fs.files == staged
            && fs.dirs == made + (if r.Ok? && custom !in made + staged.Keys then {custom} else {})
            && (r.Err? <==> exists x :: x in listed && !IsDepthFile(x) && FrameNumber(x).None?)
            && (r.Err? ==> r.error in listed && !IsDepthFile(r.error) && FrameNumber(r.error).None?)
            && (r.Ok? ==> FrameListOf(r.value, listed))
  {
    var temp := TempConvertDir(raw);
    var custom := UpscaledFramesDir(raw, origVidName, batchId);
    assert IsDirPath(temp) by { FolderPlaces(raw, None, None); }
    ghost var listed := Listed(fs.dirs, fs.files, raw, duplicated);
    ghost var made := StagedDirs(fs.dirs, raw);
    ghost var staged := StagedFiles(fs.files, raw, duplicated);
    fs.MakeDirs(temp);
    fs.SaveAll(FilesIn(temp, duplicated));
    assert fs.dirs == made && fs.files == staged;
    assert fs.Children(temp) == listed;
    r := ListAndSort(fs, temp);
    if r.Ok? && !fs.Exists(custom) {
      fs.MakeDir(custom);
    }
  }

  /** Each name in a frame list is a listed folder entry. */
  lemma FrameListNames(frames: seq<string>, listed: set<string>)
    requires FrameListOf(frames, listed)
    requires forall x :: x in listed ==> IsName(x)
    ensures forall i :: 0 <= i < |frames| ==> IsName(frames[i]) && frames[i] in listed
  {
    forall i | 0 <= i < |frames| ensures IsName(frames[i]) && frames[i] in listed {
      assert multiset(frames)[frames[i]] > 0;
    }
  }

  /** Frames written on top of a file map are all there. */
  lemma HoldsFramesUnion(files: map<string, Content>, dir: string, imgs: seq<Image>)
    ensures HoldsFrames(files + FrameFiles(dir, imgs), dir, imgs)
  {
    FrameFilesHold(dir, imgs);
  }

  /** Why `process_video_upscaling` raised. */
  datatype JobError =
    | UnnumberedFrame(name: string)                // the sort key of a kept name is not an integer
    | FrameFailed(frames: seq<string>, index: nat)  // frame `index` of the sorted list could not be read or upscaled

  /** How `process_video_upscaling` ends: it raises, or returns after the stitching step. */
  datatype JobOutcome = Aborted(error: JobError) | Finished(frames: seq<string>, stitch: StitchOutcome)

  /**
    The trees a job may change, by how it ends: the conversion folder; the frames folder
    once the sort succeeded; and what lines 70-77 may change once the job got that far.
   */
  function JobTrees(raw: string, origVidName: Option<string>, batchId: Option<string>, st: UpscaleSettings,
                    keepImgs: bool, out: JobOutcome): set<string>
  {
    var temp := TempConvertDir(raw);
    var custom := UpscaledFramesDir(raw, origVidName, batchId);
    match out
    case Aborted(UnnumberedFrame(_)) => {temp}
    case Aborted(FrameFailed(_, _)) => {temp, custom}
    case Finished(_, stitch) => {temp, custom} + TidyTouched(raw, origVidName, batchId, st, keepImgs, stitch)
  }

  /**
    Lines 45-66: stage and sort the converted frames, then upscale them in frame-number
    order. The sort raises with an unnumbered kept name; the loop stops at the first frame
    that fails, with the frames before it written; otherwise every kept name, in
    frame-number order, becomes the numbered frame at its position. Only the conversion
    folder and, once the sort succeeded, the frames folder change, besides the parents the
    conversion folder needs.
   */
  method StageAndUpscale(fs: FileSystem, st: UpscaleSettings, raw: string, batchId: Option<string>,
                         origVidName: Option<string>, duplicated: map<string, Image>, up: Upscaler)
    returns (r: Result<seq<string>, JobError>)
    requires RawLayout(raw) && PlainNames(origVidName, batchId, st)
    requires forall n :: n in duplicated ==> IsName(n)
    modifies fs
    ensures var temp := TempConvertDir(raw);
            var custom := UpscaledFramesDir(raw, origVidName, batchId);
            var staged := StagedFiles(old(fs.files), raw, duplicated);
            var listed := Listed(old(fs.dirs), old(fs.files), raw, duplicated);
            && temp in fs.dirs && raw in fs.dirs && Dirname(raw) in fs.dirs
            && (r.Err? && r.error.UnnumberedFrame? ==>
                  r.error.name in listed && !IsDepthFile(r.error.name) && FrameNumber(r.error.name).None?)
            && (r.Err? && r.error.FrameFailed? ==>
                  var frames := r.error.frames;
                  var k := r.error.index;
                  && FrameListOf(frames, listed) && k < |frames|
                  && UpscaleOne(staged, temp, frames[k], st, up).None?
                  && AllUpscale(staged, temp, frames[..k], st, up)
                  && HoldsFrames(fs.files, custom, UpscaledImages(staged, temp, frames[..k], st, up)))
            && (r.Ok? ==>
                  && FrameListOf(r.value, listed)
                  && AllUpscale(staged, temp, r.value, st, up)
                  && HoldsFrames(fs.files, custom, UpscaledImages(staged, temp, r.value, st, up)))
            && ConfinedTo(old(fs.dirs), old(fs.files), fs.dirs, fs.files,
                          if r.Err? && r.error.UnnumberedFrame? then {temp} else {temp, custom}, Ancestors(temp))
  {
    var temp := TempConvertDir(raw);
    var custom := UpscaledFramesDir(raw, origVidName, batchId);
    ghost var staged := StagedFiles(fs.files, raw, duplicated);
    ghost var listed := Listed(fs.dirs, fs.files, raw, duplicated);
    FolderPlaces(raw, origVidName, batchId);
    StagedDirsHoldRaw(fs.dirs, raw);
    ghost var dirs0, files0 := fs.dirs, fs.files;
    ghost var made := StagedDirs(fs.dirs, raw);
    var sorted := PrepareFrames(fs, raw, origVidName, batchId, duplicated);
    if sorted.Err? {
      StagingConfined(dirs0, files0, fs.dirs, fs.files, raw, duplicated, {}, {temp});
      return Err(UnnumberedFrame(sorted.error));
    }
    ghost var extra := if custom !in made + staged.Keys then {custom} else {};
    var frames := sorted.value;
    FrameListNames(frames, listed);
    var failed := UpscaleFrames(fs, temp, custom, frames, st, up);
    ghost var n := if failed.Some? then failed.value else |frames|;
    assert ConfinedTo(dirs0, files0, fs.dirs, fs.files, {temp, custom}, Ancestors(temp)) by {
      ghost var imgsSoFar := UpscaledImages(staged, temp, frames[..n], st, up);
      FrameFilesUnder(custom, imgsSoFar);
      UpscaledConfined(dirs0, files0, fs.dirs, fs.files, raw, custom, duplicated, extra, FrameFiles(custom, imgsSoFar));
    }
    HoldsFramesUnion(staged, custom, UpscaledImages(staged, temp, frames[..n], st, up));
    if failed.Some? {
      return Err(FrameFailed(frames, failed.value));
    }
    assert frames[..|frames|] == frames;
    return Ok(frames);
  }

  /**
    `process_video_upscaling` (lines 34-79), with `duplicate_pngs_from_folder` given as
    the frames it converts, `process_frame` as the upscaler and the encoder as a
    parameter. If the sort or a frame raises, the exception escapes, the conversion
    folder stays, and the frames upscaled so far stay in the frames folder. Otherwise
    every kept name, in frame-number order, becomes the numbered frame at its position,
    and the finish of the job leaves the folders as `JobSettled` lays out. Nothing outside
    the trees the job's outcome names changes, besides the parents the conversion folder
    needs.
   */
  method ProcessVideoUpscaling(fs: FileSystem, st: UpscaleSettings, fps: real, audioPath: Option<string>, raw: string,
                               batchId: Option<string>, ffmpegLocation: string, crf: int, preset: string,
                               keepImgs: bool, origVidName: Option<string>, duplicated: map<string, Image>,
                               up: Upscaler, encode: EncodeRequest -> bool)
    returns (out: JobOutcome)
    requires RawLayout(raw) && PlainNames(origVidName, batchId, st)
    requires forall n :: n in duplicated ==> IsName(n)
    modifies fs
    ensures var temp := TempConvertDir(raw);
            var custom := UpscaledFramesDir(raw, origVidName, batchId);
            var staged := StagedFiles(old(fs.files), raw, duplicated);
            var listed := Listed(old(fs.dirs), old(fs.files), raw, duplicated);
            && (out.Aborted? ==> raw in fs.dirs && temp in fs.dirs)
            && (out.Aborted? && out.error.UnnumberedFrame? ==>
                  out.error.name in listed && !IsDepthFile(out.error.name) && FrameNumber(out.error.name).None?)
            && (out.Aborted? && out.error.FrameFailed? ==>
                  var frames := out.error.frames;
                  var k := out.error.index;
                  && FrameListOf(frames, listed) && k < |frames|
                  && UpscaleOne(staged, temp, frames[k], st, up).None?
                  && AllUpscale(staged, temp, frames[..k], st, up)
                  && HoldsFrames(fs.files, custom, UpscaledImages(staged, temp, frames[..k], st, up)))
            && (out.Finished? ==>
                  && FrameListOf(out.frames, listed)
                  && AllUpscale(staged, temp, out.frames, st, up)
                  && JobSettled(fs.dirs, fs.files, raw, UpscaledImages(staged, temp, out.frames, st, up), batchId,
                                keepImgs, origVidName, out.stitch))
            && (out.Finished? && out.stitch.Returned? ==>
                  var mp4 := Mp4Path(custom, batchId, origVidName, st);
                  && out.stitch.mp4Path == mp4
                  && out.stitch.exceptionRaised ==
                     !encode(StitchRequest(ffmpegLocation, fps, custom, audioPath, crf, preset, mp4))
                  && (!out.stitch.exceptionRaised &&
                      (origVidName.None? || VideoName(origVidName, batchId, st) != Basename(raw)) ==>
                        mp4 in fs.files && fs.files[mp4] == Movie(EncoderPattern(custom))))
    ensures ConfinedTo(old(fs.dirs), old(fs.files), fs.dirs, fs.files,
                       JobTrees(raw, origVidName, batchId, st, keepImgs, out), Ancestors(TempConvertDir(raw)))
  {
    var temp := TempConvertDir(raw);
    var custom := UpscaledFramesDir(raw, origVidName, batchId);
    ghost var staged := StagedFiles(fs.files, raw, duplicated);
    var r := StageAndUpscale(fs, st, raw, batchId, origVidName, duplicated, up);
    if r.Err? {
      out := Aborted(r.error);
      AbortedTrees(raw, origVidName, batchId, st, keepImgs, r.error);
      return;
    }
    var frames := r.value;
    ghost var imgs := UpscaledImages(staged, temp, frames, st, up);
    ghost var dirs2, files2 := fs.dirs, fs.files;
    var stitch := FinishJob(fs, raw, imgs, batchId, fps, audioPath, ffmpegLocation, st, crf, preset,
                            keepImgs, origVidName, encode);
    out := Finished(frames, stitch);
    ConfinedCompose(old(fs.dirs), old(fs.files), dirs2, files2, fs.dirs, fs.files, {temp, custom}, Ancestors(temp),
                    {temp} + TidyTouched(raw, origVidName, batchId, st, keepImgs, stitch), {},
                    JobTrees(raw, origVidName, batchId, st, keepImgs, out), Ancestors(temp));
  }

  /** The raw frames folder of an uploaded video: `tmp_input_frames` inside the allocated folder. */
  lemma InputFramesLayout(outdir: string)
    requires IsDirPath(outdir)
    ensures var raw := Join(outdir, "tmp_input_frames");
            RawLayout(raw) && IsDirPath(raw) && Dirname(raw) == outdir && Basename(raw) == "tmp_input_frames"
  {
    SplitJoin(outdir, "tmp_input_frames");
  }

  /** Where an uploaded video's job puts its video and, when it moves them, its frames. */
  lemma UploadPlaces(outdir: string, folderName: string, st: UpscaleSettings)
    requires IsDirPath(outdir) && IsName(folderName)
    requires NoSlash(st.scaleText) && NoSlash(st.upscaler1) && NoSlash(st.upscaler2)
    ensures var raw := Join(outdir, "tmp_input_frames");
            var v := VideoName(Some(folderName), None, st);
            && PlainNames(Some(folderName), None, st)
            && Mp4Path(UpscaledFramesDir(raw, Some(folderName), None), None, Some(folderName), st) == Join(outdir, v)
            && v != Basename(raw)
            && Join(Dirname(raw), FramesName(Some(folderName), None)) == Join(outdir, "upscaled_frames_" + folderName)
  {
    var raw := Join(outdir, "tmp_input_frames");
    InputFramesLayout(outdir);
    VideoPlace(raw, Some(folderName), None, st);
    VideoNameLength(Some(folderName), None, st);
  }

  /** The parents of a path inside d that `os.makedirs` creates outside d are parents of d. */
  lemma AncestorsInside(d: string, q: string)
    requires d + "/" <= q
    ensures forall p :: p in Ancestors(q) ==> Under(p, d) || p in Ancestors(d)
  {
    forall p | p in Ancestors(q) ensures Under(p, d) || p in Ancestors(d) {
      var i :| 0 < i < |q| && q[i] == '/' && p == q[..i];
      if i > |d| {
        assert p[..|d| + 1] == q[..|d| + 1];
      } else if i < |d| {
        assert d[i] == q[i] && d[..i] == q[..i];
        AncestorAt(d, i);
      } else {
        assert p == q[..|d|] == d;
      }
    }
  }

  /** An aborted job changes only its conversion folder and, once it has upscaled frames, its frames folder. */
  lemma AbortedTrees(raw: string, origVidName: Option<string>, batchId: Option<string>, st: UpscaleSettings,
                     keepImgs: bool, e: JobError)
    ensures JobTrees(raw, origVidName, batchId, st, keepImgs, Aborted(e)) ==
            if e.UnnumberedFrame? then {TempConvertDir(raw)}
            else {TempConvertDir(raw), UpscaledFramesDir(raw, origVidName, batchId)}
  {
  }

  /** A job changes only its conversion folder, frames folder, video, moved frames and raw folder. */
  lemma JobTreesWithin(raw: string, origVidName: Option<string>, batchId: Option<string>, st: UpscaleSettings,
                       keepImgs: bool, out: JobOutcome)
    ensures var custom := UpscaledFramesDir(raw, origVidName, batchId);
            JobTrees(raw, origVidName, batchId, st, keepImgs, out) <=
              {TempConvertDir(raw), custom, Mp4Path(custom, batchId, origVidName, st),
               Join(Dirname(raw), FramesName(origVidName, batchId)), raw}
  {
  }

  /** The trees an uploaded video's job may change all lie inside its working folder. */
  lemma UploadTreesInside(outdir: string, folderName: string, st: UpscaleSettings)
    requires IsDirPath(outdir) && IsName(folderName)
    requires NoSlash(st.scaleText) && NoSlash(st.upscaler1) && NoSlash(st.upscaler2)
    ensures var raw := Join(outdir, "tmp_input_frames");
            var v := Some(folderName);
            var custom := UpscaledFramesDir(raw, v, None);
            && Under(raw, outdir)
            && Under(TempConvertDir(raw), outdir)
            && Under(custom, outdir)
            && Under(Mp4Path(custom, None, v, st), outdir)
            && Under(Join(Dirname(raw), FramesName(v, None)), outdir)
  {
    UploadFoldersInside(outdir, folderName);
    UploadOutputsInside(outdir, folderName, st);
  }

  /** The raw, conversion and frames folders lie inside the working folder. */
  lemma UploadFoldersInside(outdir: string, folderName: string)
    requires IsDirPath(outdir) && IsName(folderName)
    ensures var raw := Join(outdir, "tmp_input_frames");
            && Under(raw, outdir)
            && Under(TempConvertDir(raw), outdir)
            && Under(UpscaledFramesDir(raw, Some(folderName), None), outdir)
  {
    var raw := Join(outdir, "tmp_input_frames");
    var v := Some(folderName);
    var custom := UpscaledFramesDir(raw, v, None);
    assert RawLayout(raw) && IsDirPath(raw) && Dirname(raw) == outdir by { InputFramesLayout(outdir); }
    assert Under(raw, outdir) by { JoinUnder(outdir, "tmp_input_frames"); }
    assert Under(TempConvertDir(raw), outdir) by {
      JoinUnder(raw, "tmp_upscale_folder");
      UnderTrans(TempConvertDir(raw), raw, outdir);
    }
    assert Under(custom, outdir) by {
      FolderPlaces(raw, v, None);
      JoinUnder(raw, FramesName(v, None));
      UnderTrans(custom, raw, outdir);
    }
  }

  /** The video and the moved frames lie inside the working folder. */
  lemma UploadOutputsInside(outdir: string, folderName: string, st: UpscaleSettings)
    requires IsDirPath(outdir) && IsName(folderName)
    requires NoSlash(st.scaleText) && NoSlash(st.upscaler1) && NoSlash(st.upscaler2)
    ensures var raw := Join(outdir, "tmp_input_frames");
            var v := Some(folderName);
            && Under(Mp4Path(UpscaledFramesDir(raw, v, None), None, v, st), outdir)
            && Under(Join(Dirname(raw), FramesName(v, None)), outdir)
  {
    var raw := Join(outdir, "tmp_input_frames");
    var v := Some(folderName);
    InputFramesLayout(outdir);
    UploadPlaces(outdir, folderName, st);
    assert Under(Mp4Path(UpscaledFramesDir(raw, v, None), None, v, st), outdir) by {
      VideoPlace(raw, v, None, st);
      JoinUnder(outdir, VideoName(v, None, st));
    }
    assert Under(Join(Dirname(raw), FramesName(v, None)), outdir) by {
      FolderPlaces(raw, v, None);
      JoinUnder(outdir, FramesName(v, None));
    }
  }

  /** The parents the job creates outside its working folder are parents of the working folder. */
  lemma UploadParents(outdir: string)
    requires IsDirPath(outdir)
    ensures var raw := Join(outdir, "tmp_input_frames");
            forall x :: x in Ancestors(raw) + Ancestors(TempConvertDir(raw)) ==> Under(x, outdir) || x in Ancestors(outdir)
  {
    var raw := Join(outdir, "tmp_input_frames");
    WorkFoldersBelow(outdir);
    AncestorsInside(outdir, raw);
    AncestorsInside(outdir, TempConvertDir(raw));
  }

  /** The raw folder and the conversion folder of an upload lie strictly below its working folder. */
  lemma WorkFoldersBelow(outdir: string)
    requires IsDirPath(outdir)
    ensures var raw := Join(outdir, "tmp_input_frames");
            outdir + "/" <= raw && outdir + "/" <= TempConvertDir(raw)
  {
    var raw := Join(outdir, "tmp_input_frames");
    var temp := TempConvertDir(raw);
    InputFramesLayout(outdir);
    JoinUnder(outdir, "tmp_input_frames");
    assert temp == raw + "/" + "tmp_upscale_folder" by { FolderPlaces(raw, None, None); }
    assert temp[..|outdir| + 1] == raw[..|outdir| + 1];
  }

  /** The three steps of the upload together change nothing outside the trees the job may change. */
  lemma UploadSteps(d0: set<string>, f0: map<string, Content>, d1: set<string>, f1: map<string, Content>,
                    d2: set<string>, f2: map<string, Content>, d3: set<string>, f3: map<string, Content>,
                    raw: string, v: Option<string>, st: UpscaleSettings, keepImgs: bool, out: JobOutcome)
    requires ConfinedTo(d0, f0, d1, f1, {raw}, Ancestors(raw))
    requires ConfinedTo(d1, f1, d2, f2, {raw}, {})
    requires ConfinedTo(d2, f2, d3, f3, JobTrees(raw, v, None, st, keepImgs, out), Ancestors(TempConvertDir(raw)))
    ensures var custom := UpscaledFramesDir(raw, v, None);
            ConfinedTo(d0, f0, d3, f3,
                       {TempConvertDir(raw), custom, Mp4Path(custom, None, v, st),
                        Join(Dirname(raw), FramesName(v, None)), raw},
                       Ancestors(raw) + Ancestors(TempConvertDir(raw)))
  {
    var custom := UpscaledFramesDir(raw, v, None);
    var trees := {TempConvertDir(raw), custom, Mp4Path(custom, None, v, st),
                  Join(Dirname(raw), FramesName(v, None)), raw};
    JobTreesWithin(raw, v, None, st, keepImgs, out);
    ConfinedCompose(d0, f0, d1, f1, d2, f2, {raw}, Ancestors(raw), {raw}, {}, {raw}, Ancestors(raw));
    ConfinedCompose(d0, f0, d2, f2, d3, f3, {raw}, Ancestors(raw),
                    JobTrees(raw, v, None, st, keepImgs, out), Ancestors(TempConvertDir(raw)),
                    trees, Ancestors(raw) + Ancestors(TempConvertDir(raw)));
  }

  /** Five paths under root: every member of the set of them is under root. */
  lemma AllUnder(t: set<string>, a: string, b: string, c: string, d: string, e: string, root: string)
    requires t == {a, b, c, d, e}
    requires Under(a, root) && Under(b, root) && Under(c, root) && Under(d, root) && Under(e, root)
    ensures forall x :: x in t ==> Under(x, root)
  {
  }

  /**
    Creating the raw folder, extracting the frames into it and running the job change
    nothing outside the working folder, besides creating the working folder's parents.
   */
  lemma UploadConfined(d0: set<string>, f0: map<string, Content>, d3: set<string>, f3: map<string, Content>,
                       outdir: string, folderName: string, st: UpscaleSettings)
    requires IsDirPath(outdir) && IsName(folderName)
    requires NoSlash(st.scaleText) && NoSlash(st.upscaler1) && NoSlash(st.upscaler2)
    requires var raw := Join(outdir, "tmp_input_frames");
             var custom := UpscaledFramesDir(raw, Some(folderName), None);
             ConfinedTo(d0, f0, d3, f3,
                        {TempConvertDir(raw), custom, Mp4Path(custom, None, Some(folderName), st),
                         Join(Dirname(raw), FramesName(Some(folderName), None)), raw},
                        Ancestors(raw) + Ancestors(TempConvertDir(raw)))
    ensures ConfinedTo(d0, f0, d3, f3, {outdir}, Ancestors(outdir))
  {
    var raw := Join(outdir, "tmp_input_frames");
    var temp := TempConvertDir(raw);
    var custom := UpscaledFramesDir(raw, Some(folderName), None);
    var mp4 := Mp4Path(custom, None, Some(folderName), st);
    var moved := Join(Dirname(raw), FramesName(Some(folderName), None));
    UploadTreesInside(outdir, folderName, st);
    AllUnder({temp, custom, mp4, moved, raw}, temp, custom, mp4, moved, raw, outdir);
    UploadParents(outdir);
    ConfinedToRoot(d0, f0, d3, f3, {temp, custom, mp4, moved, raw}, Ancestors(raw) + Ancestors(temp),
                   outdir, Ancestors(outdir));
  }

  /**
    `process_upscale_vid_upload_logic` (lines 16-32), with the frame rate, the cleaned
    folder name and the extracted frames given. The working folder is the first free
    candidate; after a job whose stitching returned, its raw frames folder is gone, the
    video `<name>_upscaled_..._with_<upscaler>[_then_<upscaler>].mp4` sits in the working
    folder when the encode succeeded, and the upscaled frames sit in
    `upscaled_frames_<name>` in the working folder when they were kept or the encode
    failed. The encoder takes its soundtrack from the uploaded file.
   */
  method ProcessUpscaleVidUpload(fs: FileSystem, videoPath: string, fps: real, cwd: string, folderName: string,
                                 extracted: map<string, Image>, duplicated: map<string, Image>, st: UpscaleSettings,
                                 keepImgs: bool, ffmpegLocation: string, crf: int, preset: string,
                                 up: Upscaler, encode: EncodeRequest -> bool)
    returns (outdir: string, out: JobOutcome)
    requires IsName(folderName) && NoSlash(st.scaleText) && NoSlash(st.upscaler1) && NoSlash(st.upscaler2)
    requires forall n :: n in extracted ==> IsName(n)
    requires forall n :: n in duplicated ==> IsName(n)
    modifies fs
    ensures outdir !in old(fs.Paths())
    ensures exists k: nat :: outdir == Candidate(cwd, folderName, k) &&
                             forall j: nat :: j < k ==> Candidate(cwd, folderName, j) in old(fs.Paths())
    ensures IsDirPath(outdir) && RawLayout(Join(outdir, "tmp_input_frames"))
    ensures var raw := Join(outdir, "tmp_input_frames");
            var dirs1 := old(fs.dirs) + {raw} + Ancestors(raw);
            var files1 := old(fs.files) + FilesIn(raw, extracted);
            var staged := StagedFiles(files1, raw, duplicated);
            var custom := UpscaledFramesDir(raw, Some(folderName), None);
            var mp4 := Join(outdir, VideoName(Some(folderName), None, st));
            && (out.Finished? ==>
                  && FrameListOf(out.frames, Listed(dirs1, files1, raw, duplicated))
                  && AllUpscale(staged, TempConvertDir(raw), out.frames, st, up)
                  && (out.stitch.Returned? ==>
                        && out.stitch.mp4Path == mp4
                        && out.stitch.exceptionRaised ==
                           !encode(StitchRequest(ffmpegLocation, fps, custom, Some(videoPath), crf, preset, mp4))
                        && Vacant(fs.Paths(), raw)
                        && (!out.stitch.exceptionRaised ==>
                              mp4 in fs.files && fs.files[mp4] == Movie(EncoderPattern(custom)))
                        && (keepImgs || out.stitch.exceptionRaised ==>
                              HoldsFrames(fs.files, Join(outdir, "upscaled_frames_" + folderName),
                                          UpscaledImages(staged, TempConvertDir(raw), out.frames, st, up))))
                  && (out.stitch.Raised? ==>
                        raw in fs.dirs &&
                        HoldsFrames(fs.files, custom, UpscaledImages(staged, TempConvertDir(raw), out.frames, st, up))))
            && (out.Aborted? ==> raw in fs.dirs && TempConvertDir(raw) in fs.dirs)
            && (out.Aborted? && out.error.UnnumberedFrame? ==>
                  var listed := Listed(dirs1, files1, raw, duplicated);
                  out.error.name in listed && !IsDepthFile(out.error.name) && FrameNumber(out.error.name).None?)
            && (out.Aborted? && out.error.FrameFailed? ==>
                  var frames := out.error.frames;
                  var k := out.error.index;
                  && FrameListOf(frames, Listed(dirs1, files1, raw, duplicated)) && k < |frames|
                  && UpscaleOne(staged, TempConvertDir(raw), frames[k], st, up).None?
                  && AllUpscale(staged, TempConvertDir(raw), frames[..k], st, up)
                  && HoldsFrames(fs.files, custom, UpscaledImages(staged, TempConvertDir(raw), frames[..k], st, up)))
    ensures ConfinedTo(old(fs.dirs), old(fs.files), fs.dirs, fs.files, {outdir}, Ancestors(outdir))
  {
    outdir := AllocateOutputDir(cwd, folderName, fs.Paths());
    ghost var k: nat :| outdir == Candidate(cwd, folderName, k);
    CandidateIsDirPath(cwd, folderName, k);
    var raw := Join(outdir, "tmp_input_frames");
    InputFramesLayout(outdir);
    UploadPlaces(outdir, folderName, st);
    ghost var d0, f0 := fs.dirs, fs.files;
    MakeDirsConfined(d0, f0, raw);
    fs.MakeDirs(raw);
    ghost var d1, f1 := fs.dirs, fs.files;
    forall p | p in FilesIn(raw, extracted) ensures Under(p, raw) {
      var n :| n in extracted && p == Join(raw, n);
      JoinUnder(raw, n);
    }
    AddConfined(d1, f1, FilesIn(raw, extracted), raw);
    fs.SaveAll(FilesIn(raw, extracted));
    ghost var d2, f2 := fs.dirs, fs.files;
    out := ProcessVideoUpscaling(fs, st, fps, Some(videoPath), raw, None, ffmpegLocation, crf, preset, keepImgs,
                                 Some(folderName), duplicated, up, encode);
    UploadSteps(d0, f0, d1, f1, d2, f2, fs.dirs, fs.files, raw, Some(folderName), st, keepImgs, out);
    UploadConfined(d0, f0, fs.dirs, fs.files, outdir, folderName, st);
  }
}

=== FILE: stitch.dfy ===
/**
  `stitch_video`: name the output video, hand the upscaled frames to the
  encoder, and then delete the frames folder, move it up beside the raw
  folder, or leave it where it is.
 */
module Stitching {
  import opened Common
  import opened PathNames
  import opened Storage
  import opened Naming

  /** The arguments of the encoder call. */
  datatype EncodeRequest = EncodeRequest(
    ffmpegLocation: string,
    fps: real,
    outPath: string,
    fromFrame: int,
    toFrame: int,
    imgsPattern: string,
    soundtrack: string,
    audioPath: Option<string>,
    crf: int,
    preset: string)

  /** The encoder call that `stitch_video` makes for frames in framesDir. */
  function StitchRequest(ffmpegLocation: string, fps: real, framesDir: string, audioPath: Option<string>,
                         crf: int, preset: string, mp4: string): EncodeRequest
  {
    EncodeRequest(ffmpegLocation, fps, mp4, 0, 1000000, EncoderPattern(framesDir),
                  AudioMode(audioPath), audioPath, crf, preset)
  }

  /**
    The encoder reads every frame the write loop wrote, from frame 0 on, and takes the
    soundtrack from a file exactly when an audio path is given.
   */
  lemma StitchRequestReadsFrames(ffmpegLocation: string, fps: real, framesDir: string, audioPath: Option<string>,
                                 crf: int, preset: string, mp4: string)
    requires IsDirPath(framesDir)
    ensures var req := StitchRequest(ffmpegLocation, fps, framesDir, audioPath, crf, preset, mp4);
            && req.outPath == mp4
            && req.fromFrame == 0 && req.toFrame == 1000000
            && (forall i: nat :: ExpandFramePattern(req.imgsPattern, i) == FramePath(framesDir, i))
            && (req.soundtrack == "File" <==> audioPath.Some?)
            && (req.soundtrack == "None" <==> audioPath.None?)
            && req.audioPath == audioPath
  {
    forall i: nat ensures ExpandFramePattern(EncoderPattern(framesDir), i) == FramePath(framesDir, i) {
      EncoderReadsWrittenFrames(framesDir, i);
    }
  }

  /** The guard of the delete at line 110. */
  predicate DeletesFrames(exceptionRaised: bool, keepImgs: bool)
  {
    !exceptionRaised && !keepImgs
  }

  /** The guard of the move at line 113. */
  predicate MovesFrames(exceptionRaised: bool, keepImgs: bool, videoJob: bool)
  {
    (keepImgs && videoJob) || (videoJob && exceptionRaised)
  }

  /** What becomes of the upscaled frames. */
  datatype FramesFate = Deleted | MovedUp | LeftInPlace

  /**
    The cleanup policy: a successful encode without a request to keep the
    frames deletes them; otherwise a video job moves them up beside its raw folder and
    a batch job leaves them where they are.
   */
  function IntendedFate(encodeFailed: bool, keepImgs: bool, videoJob: bool): FramesFate
  {
    if !encodeFailed && !keepImgs then Deleted
    else if videoJob then MovedUp
    else LeftInPlace
  }

  /** The two guards of `stitch_video` implement the policy: never both, each exactly when intended. */
  lemma CleanupDecisionTable(exceptionRaised: bool, keepImgs: bool, videoJob: bool)
    ensures !(DeletesFrames(exceptionRaised, keepImgs) && MovesFrames(exceptionRaised, keepImgs, videoJob))
    ensures DeletesFrames(exceptionRaised, keepImgs) <==> IntendedFate(exceptionRaised, keepImgs, videoJob) == Deleted
    ensures MovesFrames(exceptionRaised, keepImgs, videoJob) <==> IntendedFate(exceptionRaised, keepImgs, videoJob) == MovedUp
    ensures !videoJob && exceptionRaised ==> IntendedFate(exceptionRaised, keepImgs, videoJob) == LeftInPlace
  {
  }

  /** How `stitch_video` ends: it returns the video path and whether the encoder raised, or a cleanup step raises. */
  datatype StitchOutcome = Returned(mp4Path: string, exceptionRaised: bool) | Raised

  /** The files after the encoder call: the video is written only when the encoder succeeds. */
  function Encoded(files: map<string, Content>, req: EncodeRequest, ok: bool): map<string, Content>
  {
    if ok then files[req.outPath := Movie(req.imgsPattern)] else files
  }

  /**
    `stitch_video`. The encoder is a parameter that either succeeds, writing the video,
    or raises, which is caught. Then, by the intended policy: Deleted removes the frames
    tree (raising if it is not a directory); MovedUp moves it into the grandparent
    folder (raising when the target is taken, lies inside the frames tree, or the frames
    folder is missing); LeftInPlace changes nothing. Whenever it returns, it returns the
    video path and the encoder's failure.
   */
  method StitchVideo(fs: FileSystem, batchId: Option<string>, fps: real, framesDir: string, audioPath: Option<string>,
                     ffmpegLocation: string, st: UpscaleSettings, crf: int, preset: string, keepImgs: bool,
                     origVidName: Option<string>, encode: EncodeRequest -> bool)
    returns (out: StitchOutcome)
    modifies fs
    ensures var mp4 := Mp4Path(framesDir, batchId, origVidName, st);
            var req := StitchRequest(ffmpegLocation, fps, framesDir, audioPath, crf, preset, mp4);
            var failed := !encode(req);
            var encoded := Encoded(old(fs.files), req, !failed);
            var target := MoveTarget(old(fs.dirs), framesDir, Dirname(Dirname(framesDir)));
            var fate := IntendedFate(failed, keepImgs, origVidName.Some?);
            && (out.Returned? ==> out == Returned(mp4, failed))
            && (fate == LeftInPlace ==> out.Returned? && fs.dirs == old(fs.dirs) && fs.files == encoded)
            && (fate == Deleted ==> (out.Returned? <==> framesDir in old(fs.dirs)))
            && (fate == Deleted && out.Returned? ==>
                  fs.dirs == PruneDirs(old(fs.dirs), framesDir) && fs.files == PruneFiles(encoded, framesDir))
            && (fate == MovedUp ==>
                  (out.Returned? <==> (framesDir in old(fs.dirs) || framesDir in encoded) &&
                                      !Under(target, framesDir) && Vacant(old(fs.dirs) + encoded.Keys, target)))
            && (fate == MovedUp && out.Returned? ==>
                  fs.dirs == MovedDirs(old(fs.dirs), framesDir, target) && fs.files == MovedFiles(encoded, framesDir, target))
            && (out.Raised? ==> fs.dirs == old(fs.dirs) && fs.files == encoded)
  {
    var parent := Dirname(framesDir);
    var grandparent := Dirname(parent);
    var mp4 := Mp4Path(framesDir, batchId, origVidName, st);
    var req := StitchRequest(ffmpegLocation, fps, framesDir, audioPath, crf, preset, mp4);
    var exceptionRaised := false;
    if encode(req) {
      fs.Save(mp4, Movie(req.imgsPattern));
    } else {
      exceptionRaised := true;
    }
    CleanupDecisionTable(exceptionRaised, keepImgs, origVidName.Some?);
    if DeletesFrames(exceptionRaised, keepImgs) {
      var ok := fs.RemoveTree(framesDir);
      if !ok {
        return Raised;
      }
    }
    if MovesFrames(exceptionRaised, keepImgs, origVidName.Some?) {
      var ok, _ := fs.Move(framesDir, grandparent);
      if !ok {
        return Raised;
      }
    }
    return Returned(mp4, exceptionRaised);
  }
}

=== FILE: storage.dfy ===
/**
  The part of the filesystem the upscaling core touches: a set of directory
  paths and a map from file paths to their contents, with the operations of
  `os` and `shutil` the core calls.
 */
module Storage {
  import opened Common
  import opened PathNames

  /** A decoded frame; the upscaler treats it as an opaque value. */
  datatype Image = Image(width: nat, height: nat, pixels: seq<int>)

  /** What a file holds: a PNG frame, or an encoded video made from a frame pattern. */
  datatype Content = Picture(image: Image) | Movie(framePattern: string)

  /** The directories strictly above p that `os.makedirs(p)` creates on the way. */
  function Ancestors(p: string): set<string>
  {
    set i | 0 < i < |p| && p[i] == '/' :: p[..i]
  }

  /** Every proper prefix ending just before a separator is created on the way. */
  lemma AncestorAt(p: string, i: int)
    requires 0 < i < |p| && p[i] == '/'
    ensures p[..i] in Ancestors(p)
  {
  }

  /** The directories left after removing the tree rooted at d. */
  function PruneDirs(ds: set<string>, d: string): set<string>
  {
    set p | p in ds && !Under(p, d)
  }

  /** The files left after removing the tree rooted at d. */
  function PruneFiles(fs: map<string, Content>, d: string): map<string, Content>
  {
    map p | p in fs && !Under(p, d) :: fs[p]
  }

  /** Where a path inside src ends up when src is renamed to target. */
  function Rebase(p: string, src: string, target: string): string
    requires |src| <= |p|
  {
    target + p[|src|..]
  }

  /** `shutil.move(src, dst)`: into dst when dst is a directory, otherwise onto dst itself. */
  function MoveTarget(dirs: set<string>, src: string, dst: string): string
  {
    if dst in dirs then Join(dst, Basename(StripTrailingSlashes(src))) else dst
  }

  /** Nothing exists at or below t. */
  predicate Vacant(paths: set<string>, t: string)
  {
    forall p :: p in paths ==> !Under(p, t)
  }

  /** The directories after renaming the tree at src to target. */
  function MovedDirs(ds: set<string>, src: string, target: string): set<string>
  {
    PruneDirs(ds, src) + set p | p in ds && Under(p, src) :: Rebase(p, src, target)
  }

  /** Renaming never sends two paths of one tree to the same place. */
  lemma RebaseInjective(src: string, target: string)
    ensures forall p, q :: Under(p, src) && Under(q, src) && Rebase(p, src, target) == Rebase(q, src, target) ==> p == q
  {
    forall p, q | Under(p, src) && Under(q, src) && Rebase(p, src, target) == Rebase(q, src, target)
      ensures p == q
    {
      assert p == src + p[|src|..];
      assert q == src + q[|src|..];
      assert p[|src|..] == Rebase(p, src, target)[|target|..] == q[|src|..];
    }
  }

  /** The files of the tree at src, at their places after renaming src to target. */
  function RebasedFiles(fs: map<string, Content>, src: string, target: string): map<string, Content>
  {
    RebaseInjective(src, target);
    map p | p in fs && Under(p, src) :: Rebase(p, src, target) := fs[p]
  }

  /** The files after renaming the tree at src to target. */
  function MovedFiles(fs: map<string, Content>, src: string, target: string): map<string, Content>
  {
    PruneFiles(fs, src) + RebasedFiles(fs, src, target)
  }

  /** Renaming a tree carries every file in it, with its contents, to the new place. */
  lemma MoveCarriesFiles(fs: map<string, Content>, src: string, target: string, p: string)
    requires p in fs && Under(p, src)
    ensures Rebase(p, src, target) in MovedFiles(fs, src, target)
    ensures MovedFiles(fs, src, target)[Rebase(p, src, target)] == fs[p]
  {
    var moved := RebasedFiles(fs, src, target);
    RebaseInjective(src, target);
    assert Rebase(p, src, target) in moved;
    assert moved[Rebase(p, src, target)] == fs[p];
  }

  /** Renaming a tree leaves every file outside both the old and the new place where it was. */
  lemma MoveKeepsOthers(fs: map<string, Content>, src: string, target: string, p: string)
    requires p in fs && !Under(p, src) && !Under(p, target)
    ensures p in MovedFiles(fs, src, target) && MovedFiles(fs, src, target)[p] == fs[p]
  {
    var moved := RebasedFiles(fs, src, target);
    assert p !in moved by {
      forall q | q in fs && Under(q, src) ensures Rebase(q, src, target) != p {
        var r := Rebase(q, src, target);
        assert r == target + q[|src|..];
        assert Under(r, target) by {
          if q != src {
            assert q[|src|] == '/';
            assert r[|target|] == '/' && r[..|target| + 1] == target + "/";
          } else {
            assert r == target;
          }
        }
      }
    }
  }

  /** A renamed tree lands inside its target. */
  lemma RebaseUnder(p: string, src: string, target: string)
    requires Under(p, src)
    ensures Under(Rebase(p, src, target), target)
  {
    var r := Rebase(p, src, target);
    if p != src {
      assert p[..|src| + 1] == src + "/";
      assert r[..|target| + 1] == target + "/";
    }
  }

  /** p lies inside none of the trees. */
  predicate Outside(p: string, trees: set<string>)
  {
    forall t :: t in trees ==> !Under(p, t)
  }

  /**
    Going from (d0, f0) to (d1, f1) changed nothing outside the trees: every folder and
    file outside them is still there with its contents, no file appeared outside them, and
    the only folders that appeared outside them are among the parents `made` on the way.
   */
  predicate ConfinedTo(d0: set<string>, f0: map<string, Content>, d1: set<string>, f1: map<string, Content>,
                       trees: set<string>, made: set<string>)
  {
    && (forall p :: p in d0 && Outside(p, trees) ==> p in d1)
    && (forall p :: p in d1 && Outside(p, trees) ==> p in d0 || p in made)
    && (forall p :: p in f0 && Outside(p, trees) ==> p in f1 && f1[p] == f0[p])
    && (forall p :: p in f1 && Outside(p, trees) ==> p in f0)
  }

  /** Two confined steps make a step confined to both sets of trees. */
  lemma ConfinedCompose(d0: set<string>, f0: map<string, Content>, d1: set<string>, f1: map<string, Content>,
                        d2: set<string>, f2: map<string, Content>, t1: set<string>, m1: set<string>,
                        t2: set<string>, m2: set<string>, trees: set<string>, made: set<string>)
    requires ConfinedTo(d0, f0, d1, f1, t1, m1) && ConfinedTo(d1, f1, d2, f2, t2, m2)
    requires t1 <= trees && t2 <= trees && m1 <= made && m2 <= made
    ensures ConfinedTo(d0, f0, d2, f2, trees, made)
  {
  }

  /** A step confined to some trees is confined to any larger set of them. */
  lemma ConfinedWiden(d0: set<string>, f0: map<string, Content>, d1: set<string>, f1: map<string, Content>,
                      t: set<string>, m: set<string>, trees: set<string>, made: set<string>)
    requires ConfinedTo(d0, f0, d1, f1, t, m) && t <= trees && m <= made
    ensures ConfinedTo(d0, f0, d1, f1, trees, made)
  {
  }

  /** A step confined to trees inside root is confined to root. */
  lemma ConfinedToRoot(d0: set<string>, f0: map<string, Content>, d1: set<string>, f1: map<string, Content>,
                       t: set<string>, m: set<string>, root: string, made: set<string>)
    requires ConfinedTo(d0, f0, d1, f1, t, m)
    requires forall x :: x in t ==> Under(x, root)
    requires forall x :: x in m ==> Under(x, root) || x in made
    ensures ConfinedTo(d0, f0, d1, f1, {root}, made)
  {
    forall p | Outside(p, {root}) ensures Outside(p, t) {
      forall x | x in t ensures !Under(p, x) {
        if Under(p, x) { UnderTrans(p, x, root); }
      }
    }
  }

  /** `shutil.rmtree(d)` changes nothing outside d. */
  lemma PruneConfined(ds: set<string>, fs: map<string, Content>, d: string)
    ensures ConfinedTo(ds, fs, PruneDirs(ds, d), PruneFiles(fs, d), {d}, {})
  {
  }

  /** Writing one file changes nothing but that path. */
  lemma SaveConfined(ds: set<string>, fs: map<string, Content>, p: string, c: Content)
    ensures ConfinedTo(ds, fs, ds, fs[p := c], {p}, {})
  {
  }

  /** Writing files inside root changes nothing outside it. */
  lemma AddConfined(ds: set<string>, fs: map<string, Content>, m: map<string, Content>, root: string)
    requires forall p :: p in m ==> Under(p, root)
    ensures ConfinedTo(ds, fs, ds, fs + m, {root}, {})
  {
  }

  /** Creating the given folders changes nothing outside them. */
  lemma AddDirsConfined(ds: set<string>, fs: map<string, Content>, extra: set<string>)
    ensures ConfinedTo(ds, fs, ds + extra, fs, extra, {})
  {
    forall p | p in extra ensures !Outside(p, extra) {
      assert Under(p, p);
    }
  }

  /** `os.makedirs(p)` adds p and, outside it, only parents of p. */
  lemma MakeDirsConfined(ds: set<string>, fs: map<string, Content>, p: string)
    ensures ConfinedTo(ds, fs, ds + {p} + Ancestors(p), fs, {p}, Ancestors(p))
  {
  }

  /** `shutil.move(src, ...)` to target changes nothing outside src and target. */
  lemma MoveConfined(ds: set<string>, fs: map<string, Content>, src: string, target: string)
    ensures ConfinedTo(ds, fs, MovedDirs(ds, src, target), MovedFiles(fs, src, target), {src, target}, {})
  {
    forall q | Under(q, src) ensures Under(Rebase(q, src, target), target) {
      RebaseUnder(q, src, target);
    }
    forall p | p in fs && Outside(p, {src, target})
      ensures p in MovedFiles(fs, src, target) && MovedFiles(fs, src, target)[p] == fs[p]
    {
      MoveKeepsOthers(fs, src, target, p);
    }
  }

  /** The last component of every path directly inside d. */
  function ChildNames(paths: set<string>, d: string): (names: set<string>)
    ensures forall n :: n in names ==> IsName(n)
  {
    set p | p in paths && d + "/" <= p && IsName(p[|d| + 1..]) :: p[|d| + 1..]
  }

  class FileSystem {
    var dirs: set<string>
    var files: map<string, Content>

    constructor (dirs0: set<string>, files0: map<string, Content>)
      ensures dirs == dirs0 && files == files0
    {
      dirs := dirs0;
      files := files0;
    }

    /** `os.path.exists(p)`. */
    predicate Exists(p: string)
      reads this
    {
      p in dirs || p in files
    }

    function Paths(): set<string>
      reads this
    {
      dirs + files.Keys
    }

    /** The names `os.listdir(d)` reports. */
    function Children(d: string): (names: set<string>)
      reads this
      ensures forall n :: n in names ==> IsName(n)
    {
      ChildNames(Paths(), d)
    }

    /** `os.makedirs(p, exist_ok=True)`. */
    method MakeDirs(p: string)
      modifies this
      ensures dirs == old(dirs) + {p} + Ancestors(p)
      ensures files == old(files)
    {
      dirs := dirs + {p} + Ancestors(p);
    }

    /** `os.mkdir(p)`; the core calls it only after seeing that p does not exist. */
    method MakeDir(p: string)
      requires !Exists(p)
      modifies this
      ensures dirs == old(dirs) + {p}
      ensures files == old(files)
    {
      dirs := dirs + {p};
    }

    /** Writing a whole file (`Image.save`). */
    method Save(p: string, c: Content)
      modifies this
      ensures files == old(files)[p := c]
      ensures dirs == old(dirs)
    {
      files := files[p := c];
    }

    /** A foreign step that writes a batch of whole files. */
    method SaveAll(m: map<string, Content>)
      modifies this
      ensures files == old(files) + m
      ensures dirs == old(dirs)
    {
      files := files + m;
    }

    /** `shutil.rmtree(d)`: raises (ok false, nothing changed) unless d is a directory. */
    method RemoveTree(d: string) returns (ok: bool)
      modifies this
      ensures ok == (d in old(dirs))
      ensures ok ==> dirs == PruneDirs(old(dirs), d) && files == PruneFiles(old(files), d)
      ensures !ok ==> dirs == old(dirs) && files == old(files)
    {
      ok := d in dirs;
      if ok {
        dirs := PruneDirs(dirs, d);
        files := PruneFiles(files, d);
      }
    }

    /**
      `shutil.move(src, dst)`: raises (ok false, nothing changed) when src does not exist,
      when the target is already taken, or when the target lies inside src.
     */
    method Move(src: string, dst: string) returns (ok: bool, target: string)
      modifies this
      ensures target == MoveTarget(old(dirs), src, dst)
      ensures ok == (old(Exists(src)) && !Under(target, src) && Vacant(old(Paths()), target))
      ensures ok ==> dirs == MovedDirs(old(dirs), src, target) && files == MovedFiles(old(files), src, target)
      ensures !ok ==> dirs == old(dirs) && files == old(files)
    {
      target := MoveTarget(dirs, src, dst);
      ok := Exists(src) && !Under(target, src) && forall p | p in Paths() :: !Under(p, target);
      if ok {
        dirs := MovedDirs(dirs, src, target);
        files := MovedFiles(files, src, target);
      }
    }

    /** `os.listdir(d)`: every name directly inside d once, in no particular order. */
    method ListDir(d: string) returns (names: seq<string>)
      requires d in dirs
      ensures forall i, j :: 0 <= i < j < |names| ==> names[i] != names[j]
      ensures forall n :: n in names <==> n in Children(d)
      ensures forall i :: 0 <= i < |names| ==> IsName(names[i])
    {
      names := [];
      var rest := Children(d);
      while rest != {}
        invariant forall i, j :: 0 <= i < j < |names| ==> names[i] != names[j]
        invariant forall n :: n in names ==> n in Children(d) && n !in rest
        invariant forall n :: n in Children(d) ==> n in names || n in rest
        invariant rest <= Children(d)
        invariant forall i :: 0 <= i < |names| ==> IsName(names[i])
        decreases |rest|
      {
        var n :| n in rest;
        names := names + [n];
        rest := rest - {n};
      }
    }
  }
}
